=== FILE: README.md ===
# deepfreeze in Dafny

A functional model of the decision logic of deepfreeze, the tool that keeps
Elasticsearch searchable-snapshot repositories in cold cloud storage and
rotates them. It covers:

- the per-provider storage operations behind the `S3Client` interface:
  - `thaw`: restore or rehydrate the objects of a repository;
  - `refreeze`: move them back to a cold tier;
  - bucket creation and listing;
  - the tables that translate between AWS S3 storage classes, Azure access
    tiers and Google Cloud Storage classes;
- the provider factory and the interface defaults;
- the rotation rules of the standalone `Processor`: ILM policy repointing,
  repository selection, next-name suffixes, the name-collision check and the
  age-off selection;
- the command line's thaw-mode validation, the refreeze scope and the Azure
  name conversion, and the legacy configuration validators.

Cloud SDKs and Elasticsearch are not called. Each provider's service is a
record of oracle functions:

- what a key's metadata reports;
- whether fetching that metadata fails;
- whether the mutating call for that key fails.

`thaw` and `refreeze` are folds (`Batch.Run`) over the objects. Each object
gets one `Step`: the counter it lands in (done, skipped or error) and the
mutating request issued for it, if any. A fold returns the three counters and
the list of requests in order.

Modules:

| file | module | contents |
|---|---|---|
| wrappers.dfy | Wrappers | `Option`, `Result`, `Outcome`, Python truthiness of an optional string |
| strings.dfy | Strings | `startswith`, literal `re.search`, filtering, `str.replace`, code-point order, `sorted` |
| decimal.dfy | Decimal | `str(n)`, `int(s)`, `format(n, "0Wd")`, incrementing a digit suffix |
| batch.dfy | Batch | the per-object loop shared by every `thaw` and `refreeze` |
| storage_class.dfy | StorageClass | the S3 storage-class vocabulary |
| buckets.dfy | Buckets | existence probe, `create_bucket` skeleton, `list_buckets` filter |
| aws_client.dfy | AwsClient | `AwsS3Client` |
| azure_client.dfy | AzureClient | `AzureBlobClient` |
| gcp_client.dfy | GcpClient | `GcpStorageClient` |
| s3client.dfy | S3Client | interface defaults, factory, cross-provider agreement |
| rotation.dfy | Rotation | `deepfreeze/deepfreeze.py` |
| cli.dfy | Cli | `deepfreeze` command-line rules |
| config.dfy | Config | `src/config.py` validators |

## Model

| member | source | states |
|---|---|---|
| Batch.Run | packages/deepfreeze-core/deepfreeze_core/aws_client.py:212-289 | every object lands in exactly one of restored, skipped and errors, so the three counters sum to the number of objects; at most one request per object |
| Buckets.BucketExists | packages/deepfreeze-core/deepfreeze_core/aws_client.py:166-180 | true exactly when the probe finds the bucket, false exactly on not-found, and any other probe error raises |
| Buckets.ListBuckets | packages/deepfreeze-core/deepfreeze_core/aws_client.py:449-468 | with a non-empty prefix, only names from the listing that start with it, and every such name; with no prefix or an empty one, the listing unchanged (Azure 383-404 and GCP 389-410 have the same code) |
| Buckets.ListBucketsAppend | packages/deepfreeze-core/deepfreeze_core/aws_client.py:460-466 | the comprehension keeps the listing's order and repeats: listing two runs of names lists each run in turn |
| Buckets.ListBucketsSingleton | packages/deepfreeze-core/deepfreeze_core/aws_client.py:460-466 | one name is listed exactly when there is no prefix filter or the name starts with the prefix |
| Buckets.ListBucketsKeepsAll | packages/deepfreeze-core/deepfreeze_core/aws_client.py:460-466 | when every name starts with the prefix, the whole listing comes back unchanged |
| AwsClient.IsColdName | packages/deepfreeze-core/deepfreeze_core/aws_client.py:244 | the restorable classes are exactly GLACIER, DEEP_ARCHIVE and GLACIER_IR |
| AwsClient.ClassOf | packages/deepfreeze-core/deepfreeze_core/aws_client.py:224-241 | the record's own StorageClass wins; otherwise head_object's class is used; a failing head_object leaves no class, which counts as an error |
| AwsClient.Thaw | packages/deepfreeze-core/deepfreeze_core/aws_client.py:182-289 | restored + skipped + errors = number of objects |
| AwsClient.ThawRequestsExactly | packages/deepfreeze-core/deepfreeze_core/aws_client.py:220-269 | the restore requests are one per object that is under base_path and has a known cold class, in input order; each carries bucket, key, Days = restore_days and Tier = retrieval_tier |
| AwsClient.ThawCounts | packages/deepfreeze-core/deepfreeze_core/aws_client.py:216-280 | each counter equals the number of objects whose own fate it is (outside prefix or not cold: skipped; metadata or restore failure: error), so one failure never affects another object |
| AwsClient.ThawOneFailure | packages/deepfreeze-core/deepfreeze_core/aws_client.py:271-280 | if one object fails and every other is restorable, exactly one error is counted and all the others are restored |
| AwsClient.ThawRequestsInScope | packages/deepfreeze-core/deepfreeze_core/aws_client.py:220-222 | no restore is ever requested for a key outside base_path, and each request carries the caller's days and tier |
| AwsClient.ThawRequestsIgnoreFailures | packages/deepfreeze-core/deepfreeze_core/aws_client.py:271-280 | changing which restores fail does not change the requests issued: a failure is caught and the loop continues |
| AwsClient.Refreeze | packages/deepfreeze-core/deepfreeze_core/aws_client.py:315-356 | nothing is skipped; refrozen + errors = number of objects listed under the prefix |
| AwsClient.RefreezeCopiesEveryListed | packages/deepfreeze-core/deepfreeze_core/aws_client.py:315-356 | one copy_object per listed key, in listing order, with the target class, whatever the object's current class; errors = the listed keys whose copy fails |
| AwsClient.LocationConstraint | packages/deepfreeze-core/deepfreeze_core/aws_client.py:141-157 | a LocationConstraint is sent exactly when the region is set, non-empty and not us-east-1, and it is that region |
| AwsClient.CreateBucket | packages/deepfreeze-core/deepfreeze_core/aws_client.py:134-164 | no create call when the bucket exists ("already exists") or the probe fails; success exactly when the probe says not-found and the create succeeds; any create error is "Error creating bucket" |
| AzureClient.PriorityFor | packages/deepfreeze-core/deepfreeze_core/azure_client.py:161-166 | Expedited gives High; Standard, Bulk and every other tier give Standard |
| AzureClient.ArchiveName | packages/deepfreeze-core/deepfreeze_core/azure_client.py:183-185 | on the SDK's tier string, thaw acts exactly when the tier is "Archive" |
| AzureClient.Thaw | packages/deepfreeze-core/deepfreeze_core/azure_client.py:169-225 | restored + skipped + errors = number of objects |
| AzureClient.ThawRequestsExactly | packages/deepfreeze-core/deepfreeze_core/azure_client.py:172-206 | exactly the blobs under base_path whose tier is Archive are set to Hot at the mapped priority, one request each, in order |
| AzureClient.ThawCounts | packages/deepfreeze-core/deepfreeze_core/azure_client.py:176-214 | each counter equals the number of blobs whose own fate it is; an AzureError on one blob, from the properties fetch or the tier change, is one error and the loop goes on |
| AzureClient.RefreezeTier | packages/deepfreeze-core/deepfreeze_core/azure_client.py:254-259 | GLACIER_IR goes to Cool; GLACIER, DEEP_ARCHIVE and anything else go to Archive |
| AzureClient.Refreeze | packages/deepfreeze-core/deepfreeze_core/azure_client.py:261-294 | nothing is skipped; refrozen + errors = number of blobs listed under the prefix |
| AzureClient.RefreezeRetiersEveryListed | packages/deepfreeze-core/deepfreeze_core/azure_client.py:266-287 | one tier change per listed blob, to the mapped tier, in order; errors = the listed blobs whose change fails |
| AzureClient.TierToS3 | packages/deepfreeze-core/deepfreeze_core/azure_client.py:496-512 | Hot, Cool, Cold and Archive map to STANDARD, STANDARD_IA, ONEZONE_IA and GLACIER; anything else maps to STANDARD; GLACIER is reported exactly for Archive |
| AzureClient.CopyTier | packages/deepfreeze-core/deepfreeze_core/azure_client.py:483-490 | STANDARD gives Hot and STANDARD_IA gives Cool (both iff); every other class gives Archive |
| AzureClient.CopyTierAfterReport | packages/deepfreeze-core/deepfreeze_core/azure_client.py:483-512 | copying with the reported class gives back Hot, Cool and Archive; Cold comes back as Archive |
| AzureClient.ReportAfterCopyTier | packages/deepfreeze-core/deepfreeze_core/azure_client.py:483-512 | STANDARD and STANDARD_IA survive a copy and report; every other class reads back as GLACIER |
| AzureClient.FormatRestoreHeader | packages/deepfreeze-core/deepfreeze_core/azure_client.py:514-537 | ongoing-request="true" iff Archive with a rehydrate-pending status; ongoing-request="false" iff Hot or Cool with a non-empty archive status; None otherwise |
| AzureClient.HeadObject | packages/deepfreeze-core/deepfreeze_core/azure_client.py:406-442 | the reported class is TierToS3 of the blob's tier (Hot STANDARD, Cool STANDARD_IA, Cold GLACIER_IR, Archive GLACIER), so GLACIER is reported exactly for Archive; a restore in progress is reported on a GLACIER object, a finished one on STANDARD or STANDARD_IA; the Restore header is the one FormatRestoreHeader gives for the blob's tier and archive status (ongoing while an Archive blob rehydrates, finished on a Hot or Cool blob that still carries an archive status, none otherwise); an unknown tier reads as STANDARD with no restore header |
| AzureClient.CreateBucket | packages/deepfreeze-core/deepfreeze_core/azure_client.py:93-106 | no create call when the container exists; an existing container or a ResourceExistsError reads as "already exists", a failed probe as a probe error, any other create error as a creation error; success exactly when not found and created |
| GcpClient.DefaultLocation | packages/deepfreeze-core/deepfreeze_core/gcp_client.py:47 | the constructor argument when non-empty, else GOOGLE_CLOUD_LOCATION when set, else "US" |
| GcpClient.Thaw | packages/deepfreeze-core/deepfreeze_core/gcp_client.py:180-233 | restored + skipped + errors = number of objects |
| GcpClient.ThawRequestsExactly | packages/deepfreeze-core/deepfreeze_core/gcp_client.py:184-214 | exactly the ARCHIVE, COLDLINE and NEARLINE blobs under base_path get update_storage_class("STANDARD"), one each, in order |
| GcpClient.IsColdName | packages/deepfreeze-core/deepfreeze_core/gcp_client.py:196 | on the SDK's class string, thaw acts exactly on ARCHIVE, COLDLINE and NEARLINE |
| GcpClient.ThawCounts | packages/deepfreeze-core/deepfreeze_core/gcp_client.py:188-224 | each counter equals the number of blobs whose own fate it is; a GoogleAPIError on one blob is one error and the loop goes on |
| GcpClient.ThawIgnoresRestoreArgs | packages/deepfreeze-core/deepfreeze_core/gcp_client.py:147-233 | the result does not depend on restore_days or retrieval_tier |
| GcpClient.RefreezeClass | packages/deepfreeze-core/deepfreeze_core/gcp_client.py:262-267 | GLACIER_IR goes to COLDLINE; GLACIER, DEEP_ARCHIVE and anything else go to ARCHIVE |
| GcpClient.Refreeze | packages/deepfreeze-core/deepfreeze_core/gcp_client.py:270-301 | nothing is skipped; refrozen + errors = number of blobs listed under the prefix |
| GcpClient.RefreezeUpdatesEveryListed | packages/deepfreeze-core/deepfreeze_core/gcp_client.py:274-294 | one class change per listed blob, to the mapped class, in order; errors = the listed blobs whose change fails |
| GcpClient.ClassToS3 | packages/deepfreeze-core/deepfreeze_core/gcp_client.py:504-520 | STANDARD, NEARLINE, COLDLINE and ARCHIVE map to STANDARD, STANDARD_IA, ONEZONE_IA and GLACIER; anything else maps to STANDARD |
| GcpClient.CopyClass | packages/deepfreeze-core/deepfreeze_core/gcp_client.py:475-481 | STANDARD gives STANDARD and STANDARD_IA gives NEARLINE (both iff); every other class gives ARCHIVE |
| GcpClient.CopyClassAfterReport | packages/deepfreeze-core/deepfreeze_core/gcp_client.py:475-520 | copying with the reported class keeps STANDARD, NEARLINE and ARCHIVE; COLDLINE comes back as ARCHIVE |
| GcpClient.HeadObject | packages/deepfreeze-core/deepfreeze_core/gcp_client.py:412-448 | Restore is always None; the reported class is ClassToS3 of the object's class (so GLACIER exactly for ARCHIVE) and GcsStorageClass is the object's own class |
| GcpClient.CopyObject | packages/deepfreeze-core/deepfreeze_core/gcp_client.py:450-502 | a rewrite first; then a class update, to the mapped class, exactly when the rewrite succeeded and the requested class is not STANDARD; ActionError exactly when the rewrite fails or the update it issues fails |
| GcpClient.CopyObjectDefaultsToArchive | packages/deepfreeze-core/deepfreeze_core/gcp_client.py:475-498 | an unrecognised class is copied into ARCHIVE |
| GcpClient.CreateBucket | packages/deepfreeze-core/deepfreeze_core/gcp_client.py:112-128 | no create call when the bucket exists; an existing bucket or a Conflict reads as "already exists", a failed probe as a probe error, any other create error as a creation error; the create request carries the client's location; success exactly when not found and created |
| S3Client.ClientFactory | packages/deepfreeze-core/deepfreeze_core/s3client.py:183-211 | "aws" gives the AWS client and "azure" the Azure client (each iff); "gcp" raises NotImplementedError; every other string raises ValueError |
| S3Client.FactoryInjective | packages/deepfreeze-core/deepfreeze_core/s3client.py:199-206 | each client kind comes from exactly one provider name |
| S3Client.DefaultsAreCold | packages/deepfreeze-core/deepfreeze_core/s3client.py:56-82 | the default refreeze class GLACIER lands in a cold class that a later thaw restores on every provider (S3 GLACIER, Azure Archive, GCS ARCHIVE; on AWS it is not the coldest, DEEP_ARCHIVE is), and the default retrieval tier Standard rehydrates at Azure's Standard priority |
| S3Client.DefaultThawRequests | packages/deepfreeze-core/deepfreeze_core/s3client.py:56-63 | a thaw with the interface defaults asks S3 for every restore with 7 days at the Standard tier, in the bucket named |
| S3Client.RefreezeThenThaw | packages/deepfreeze-core/deepfreeze_core/azure_client.py:254-259 | what refreeze moved is picked up by a later thaw: always on GCP, on Azure except for GLACIER_IR (which goes to Cool), on AWS for the three Glacier classes (the cold set at aws_client.py line 244; GCP's refreeze map at gcp_client.py lines 262-267 sends every class to a cold one) |
| S3Client.ColdSetsAgainstReportedClass | packages/deepfreeze-core/deepfreeze_core/gcp_client.py:187-214 | Azure thaws exactly what it reports as GLACIER; GCP also thaws blobs it reports as STANDARD_IA and ONEZONE_IA, which the AWS rule skips |
| Strings.Sort | deepfreeze/deepfreeze.py:33-34 | `repo_list.sort()`: the same names in code-point ascending order |
| Rotation.LatestRepo | deepfreeze/deepfreeze.py:33-35 | the last sorted name: one of the repositories and at least every other one; none for an empty list |
| Rotation.CheckNewName | deepfreeze/deepfreeze.py:37-39 | the new name is refused exactly when it is already a repository name |
| Rotation.RepointPolicy | deepfreeze/deepfreeze.py:84-90 | every phase whose searchable_snapshot repository is the latest now uses the new one; all other phases and all other actions are unchanged |
| Rotation.RepointRoundTrip | deepfreeze/deepfreeze.py:84-90 | repointing back restores the policy when the new repository was unused |
| Rotation.UpdateIlmPolicies | deepfreeze/deepfreeze.py:68-104 | nothing happens iff the latest repository is the new one; otherwise exactly the policies referencing the latest are submitted, rewritten, and none of them still references it |
| Rotation.IlmUpdateSettles | deepfreeze/deepfreeze.py:91-104 | once the submitted policies are stored, a second run submits nothing |
| Rotation.GetReposWithinAsWritten | deepfreeze/deepfreeze.py:129-143 | every name starting with the prefix is also kept by the substring search |
| Rotation.GetReposAsWritten | deepfreeze/deepfreeze.py:137-143 | as written: every name from the listing in which the prefix occurs anywhere, and only those |
| Rotation.GetReposAsWrittenCounterexample | deepfreeze/deepfreeze.py:137-143 | with prefix "df-", the foreign "x-df-2" is kept as written and becomes the latest repository; starts-with selection keeps only "df-1" |
| Rotation.GetRepos | deepfreeze/deepfreeze.py:129-132 | exactly the names beginning with the prefix, from the listing |
| Rotation.PySliceStop | deepfreeze/deepfreeze.py:124 | Python's slice stop: a negative stop counts from the end and is clamped to 0, a stop past the end is clamped to the length |
| Rotation.AgeOffAsWritten | deepfreeze/deepfreeze.py:124-127 | as written: a leading part of the list; the whole list for keep ≤ 0; len - keep names for 0 ≤ keep ≤ len; 2·len - keep names for len < keep < 2·len; none from 2·len on |
| Rotation.AgeOffAsWrittenOldest | deepfreeze/deepfreeze.py:124-127 | with keep at most the list length, the oldest len - keep names are selected |
| Rotation.AgeOffAsWrittenWraps | deepfreeze/deepfreeze.py:124-127 | with len < keep < 2·len, the first 2·len - keep names are still selected |
| Rotation.AgeOffAsWrittenCounterexample | deepfreeze/deepfreeze.py:124-127 | keeping 4 of ["a","b","c"] selects ["a","b"] as written and nothing as intended |
| Rotation.AgeOff | deepfreeze/deepfreeze.py:119-123 | a prefix of the list that leaves exactly min(keep, len) names |
| Rotation.AgeOffAgrees | deepfreeze/deepfreeze.py:124-127 | the intended age-off equals the written one whenever keep does not exceed the list |
| Rotation.AgeOffOldest | deepfreeze/deepfreeze.py:119-127 | on the sorted list, no aged-off name is later than a kept one, and with keep ≥ 1 the latest repository is kept |
| Rotation.FormatMonthly | deepfreeze/deepfreeze.py:113 | a year below 10000 and a month below 100 give a 7-character suffix with the dot at index 4 |
| Rotation.MonthlySuffix | deepfreeze/deepfreeze.py:110-113 | each of year and month separately: the given value when present and non-zero, else the current one; all four combinations are stated |
| Rotation.MonthlyRoundTrip | deepfreeze/deepfreeze.py:113 | a monthly suffix is 7 characters, 4 digits, a dot and 2 digits, that read back as the year and month |
| Rotation.MonthlyOrder | deepfreeze/deepfreeze.py:113 | a later month gives a later suffix in sort order, so the newest monthly repository becomes the latest |
| Rotation.SearchGroup | deepfreeze/deepfreeze.py:115-116 | None exactly when the prefix occurs nowhere with a character after it; otherwise everything after the leftmost such occurrence, which is the rest of the name when the name starts with the prefix, and never empty |
| Rotation.OneupSuffixAsWritten | deepfreeze/deepfreeze.py:114-117 | as written: no suffix exactly when the pattern does not match; for a latest name that starts with the prefix, prefix + suffix is that name again |
| Rotation.OneupAsWrittenCollides | deepfreeze/deepfreeze.py:114-117 | as written, "oneup" rebuilds the latest repository's own name, so the collision check refuses it |
| Rotation.NextOneupSuffix | deepfreeze/deepfreeze.py:114-117 | the intended suffix: defined exactly when the latest name is the prefix followed by one or more digits, its value is one more, and it keeps the suffix's width unless the suffix is all nines |
| Rotation.NextOneupFresh | deepfreeze/deepfreeze.py:114-117 | when the suffix is not all nines, the intended name sorts after every repository and passes the collision check |
| Rotation.Process | deepfreeze/deepfreeze.py:145-155 | if bucket creation fails, only the failure; otherwise the repository is created first, the age-off notice of the sorted repositories comes last, and policies are submitted only between them, only when the latest repository is not the new one, and none of them still references the latest; with something to submit, exactly one submission of the updated policies |
| Rotation.ProcessSubmitsReferencing | deepfreeze/deepfreeze.py:68-104 | with the bucket created, every policy that snapshots into the latest repository is submitted, repointed to the new one; nothing is submitted exactly when the new repository is the latest or no policy references the latest |
| Cli.RequestId | packages/deepfreeze-cli/deepfreeze/cli/main.py:813-815 | a request id exactly when --check-status has a non-empty value, and it is that value |
| Cli.ValidateThaw | packages/deepfreeze-cli/deepfreeze/cli/main.py:772-796 | no active mode is an error and more than one is an error (each iff); a date range needs both dates; on success the mode is the one active option, and a status check carries RequestId |
| Cli.ValidateThawRoundTrip | packages/deepfreeze-cli/deepfreeze/cli/main.py:772-815 | every well-formed mode is selected by the options that name it |
| Cli.ValidateThawWellFormed | packages/deepfreeze-cli/deepfreeze/cli/main.py:791-815 | accepted create modes have two non-empty dates; a status check never names the empty id |
| Cli.RefreezeScopeOf | packages/deepfreeze-cli/deepfreeze/cli/main.py:620 | all open requests iff no thaw_request_id is given; otherwise that id, even when empty |
| Cli.Convert | packages/deepfreeze-cli/deepfreeze/cli/main.py:310-319 | a prefix keeps its length, loses every underscore, and each underscore becomes a hyphen while all other characters stay |
| Cli.ConvertAzureNames | packages/deepfreeze-cli/deepfreeze/cli/main.py:304-337 | only for azure; aborts iff some prefix has an underscore and the user declines; otherwise each prefix is converted |
| Cli.ConvertAzureNamesIdempotent | packages/deepfreeze-cli/deepfreeze/cli/main.py:304-337 | converted names pass a second run unchanged, without a prompt |
| Cli.ConvertKeepsClean | packages/deepfreeze-cli/deepfreeze/cli/main.py:310-314 | a prefix without underscores (or unset, or empty) is left exactly as it was |
| Cli.ChoicesAgreeWithConfig | packages/deepfreeze-cli/deepfreeze/cli/main.py:172-230 | the canned ACL and storage class choices are exactly what the legacy validators accept; the only style offered, oneup, is accepted |
| Cli.ProviderChoicesAgainstFactory | packages/deepfreeze-cli/deepfreeze/cli/main.py:206 | of the provider choices, the factory builds aws and azure and refuses gcp |
| Cli.RetrievalTierChoicesAgainstAzure | packages/deepfreeze-cli/deepfreeze/cli/main.py:673 | the offered retrieval tiers include the default "Standard", and of them only "Expedited" rehydrates at High priority on Azure |
| Config.Check | src/config.py:28-61 | a value is accepted iff it is in the list, and is returned unchanged; otherwise the validator's ValueError message |
| Config.CheckStyle | src/config.py:28-33 | accepted iff "monthly" or "oneup", unchanged |
| Config.CheckCannedAcl | src/config.py:35-48 | accepted iff one of the seven canned ACLs, unchanged |
| Config.CheckStorageClass | src/config.py:50-61 | accepted iff one of the five storage classes, unchanged |
| Config.ChecksIdempotent | src/config.py:28-61 | validating an accepted value again accepts it unchanged |
| Config.StorageClassIsLowerCase | src/config.py:50-61 | the lists are case-sensitive: "STANDARD" is refused, "standard" accepted |

## Left out

- Cloud SDK calls, credentials and connection setup in the client constructors are left out. So are `test_connection`, `delete_bucket`, `put_object` and `list_objects`. Their effect is stood for by oracle functions and request values.
- AWS `head_object` and `copy_object` are left out. They pass the SDK's answer through with no decision of their own.
- Pagination in `refreeze` is not modelled: the bucket listing is one sequence of keys, and the `Prefix` argument is the filter.
- The read-only metadata fetches are left out of the request lists, which hold only the mutating calls. These are `head_object`, `get_blob_properties` and `blob.reload`. Their failure is still modelled, as an error.
- Exceptions outside the caught classes are not modelled. Examples are a non-`ClientError` from an AWS create call, or a record without a "Key", whose `None` key fails on `startswith`.
- AWS storage classes read from records are assumed to be already parsed into the S3 vocabulary (`StorageClass.Parse`). A value such as `Other("GLACIER_IR")` is never produced by that parse (`StorageClass.Canonical`); the class maps treat it as an unknown class, which is what the source does with an unknown string, but it is not the source's reading of "GLACIER_IR".
- `list_buckets` failing with a service error is not modelled.
- A restore or tier change that succeeds at the SDK but is still in progress is not modelled.
- AzureClient.Thaw: `restore_days` is not a parameter, because the Azure client never reads it.
- GcpClient.CopyObject: the rewrite-token loop is one request, because the number of rewrite rounds is a service detail.
- AzureClient.HeadObject: `ResourceNotFoundError` and `AzureError` from `get_blob_properties` (raised as ActionError) are not modelled; it describes the answer to a properties fetch that succeeds.
- GcpClient.HeadObject: `NotFound` and `GoogleAPIError` from `blob.reload` (raised as ActionError) are not modelled; it describes the answer to a reload that succeeds.
- Regular-expression metacharacters in the repository prefix are not modelled: `re.search` is taken as a literal substring search, and the `(.+)` group as running to the end of a name. Repository names are taken to contain no line break.
- Elasticsearch is not called: policies and repository names are input data.
- A `searchable_snapshot` action without a `snapshot_repository` is not modelled; the source fails on it with a KeyError.
- Logging, click decorators and prompts are left out. The user's answer to the Azure confirmation is a parameter.
- `fromisoformat` date parsing and its error exit are left out.
- The constructor and `main` of deepfreeze/deepfreeze.py are modelled function by function, not as a flow. As written, the constructor calls `get_next_suffix` before `latest_repo` exists, `datetime.now.year()` is wrong, and `main` passes two arguments to a one-argument constructor.
- `datetime.now` is not called: the current year and month are parameters.
- `create_new_bucket`'s outcome is a parameter of Rotation.Process.
- The thaw/refreeze/cleanup/repair state machine, the metadata store, the rotate action and the `get_next_suffix` utility of the packaged tool are not part of this model.
- src/rotate-monthly-repository.py, an earlier draft superseded by deepfreeze/deepfreeze.py, is not part of this model.
- The root config.py, the `__init__.py` re-exports and the tests are not part of this model.
- Rotation.Process: composes the intended Rotation.GetRepos and Rotation.AgeOff, not the as-written Rotation.GetReposAsWritten and Rotation.AgeOffAsWritten. On the names ["df-1", "x-df-2"] with prefix "df-", the code as written repoints the policies that reference "x-df-2"; the model repoints those that reference "df-1".
- Rotation.Process: requires at least one repository under the prefix, because the source's constructor indexes `repo_list[-1]` and fails on an empty list.
- Rotation.NextOneupFresh: requires a suffix that is not all nines, because "999" becomes "1000", which sorts before it.

## Findings

| source | as written | input that shows it | evidently intended | confidence | as-written member | corrected member |
|---|---|---|---|---|---|---|
| deepfreeze/deepfreeze.py:124-127 | `repo_list[slice(0, len(repo_list) - keep)]`; once `keep` exceeds the list, the stop index goes negative and counts from the end | three repositories ["a","b","c"] with keep 4 select ["a","b"] for unmounting | keep the newest `keep` repositories and unmount none when there are no more than `keep` | high; not executed | Rotation.AgeOffAsWrittenCounterexample | Rotation.AgeOff |
| deepfreeze/deepfreeze.py:114-117 | "oneup" returns the latest repository's current suffix unchanged | latest repository "df-000041" with prefix "df-" gives the new name "df-000041", which the check at lines 37-39 refuses | the next number, "df-000042" | high; not executed | Rotation.OneupAsWrittenCollides | Rotation.NextOneupSuffix |
| deepfreeze/deepfreeze.py:137-143 | `re.compile(prefix).search(repo)` keeps a name in which the prefix occurs anywhere | names ["df-1", "x-df-2"] with prefix "df-" keep both, and the foreign "x-df-2" becomes the latest repository | keep names that begin with the prefix, as the docstring at lines 131-132 says | medium; not executed | Rotation.GetReposAsWrittenCounterexample | Rotation.GetRepos |

=== FILE: aws_client.dfy ===
/** `AwsS3Client`: Glacier restore (`thaw`), re-tiering by copy
    (`refreeze`), bucket creation with its region rule, and bucket listing.
    The S3 service is a record of oracles: what `head_object` reports for a
    key and which calls fail. */
module AwsClient {
  import opened Wrappers
  import opened Strings
  import opened StorageClass
  import opened Batch
  import opened Buckets

  /** An entry of `object_keys`: a key plus the `StorageClass` field when the
      record carries one (a bare key string has none). */
  datatype S3Object = S3Object(key: string, storageClass: Option<S3Class>)

  /** The service as far as these operations can observe it. `headClass`
      gives `Other("")` when the response lacks a `StorageClass` field. */
  datatype S3Service = S3Service(
    headFails: string -> bool,
    headClass: string -> S3Class,
    restoreFails: string -> bool,
    copyFails: string -> bool)

  /** `restore_object(Bucket, Key, RestoreRequest={Days, GlacierJobParameters.Tier})`. */
  datatype RestoreRequest = RestoreRequest(bucket: string, key: string, days: int, tier: string)

  /** `copy_object` of a key onto itself with a new `StorageClass`. */
  datatype CopyRequest = CopyRequest(bucket: string, key: string, storageClass: S3Class)

  /** `create_bucket(Bucket, CreateBucketConfiguration={"LocationConstraint": ...})`. */
  datatype CreateBucketRequest = CreateBucketRequest(bucket: string, locationConstraint: Option<string>)

  /** The classes `thaw` restores. */
  predicate IsCold(c: S3Class)
  {
    c == Glacier || c == DeepArchive || c == GlacierIR
  }

  /** The cold set, read on the SDK's strings: GLACIER, DEEP_ARCHIVE and
      GLACIER_IR, and nothing else. */
  lemma IsColdName(s: string)
    ensures IsCold(Parse(s)) <==> s in ["GLACIER", "DEEP_ARCHIVE", "GLACIER_IR"]
  {
  }

  /** The class `thaw` decides on: the record's own when present, else the
      one `head_object` reports; None when that fetch fails. */
  function ClassOf(svc: S3Service, o: S3Object): (c: Option<S3Class>)
    ensures o.storageClass.Some? ==> c == o.storageClass
    ensures o.storageClass.None? ==> (c.None? <==> svc.headFails(o.key))
    ensures o.storageClass.None? && !svc.headFails(o.key) ==> c == Some(svc.headClass(o.key))
  {
    if o.storageClass.Some? then o.storageClass
    else if svc.headFails(o.key) then None
    else Some(svc.headClass(o.key))
  }

  /** One iteration of `thaw`'s loop. */
  function ThawStep(svc: S3Service, bucket: string, basePath: string, days: int, tier: string, o: S3Object): Step<RestoreRequest>
  {
    var c := ClassOf(svc, o);
    Examine(StartsWith(o.key, basePath),
            if c.None? then None else Some(IsCold(c.value)),
            RestoreRequest(bucket, o.key, days, tier),
            svc.restoreFails(o.key))
  }

  /** `thaw(bucket, base_path, object_keys, restore_days, retrieval_tier)`:
      the restored/skipped/error counters and the restore requests sent. */
  function Thaw(svc: S3Service, bucket: string, basePath: string, objects: seq<S3Object>, days: int, tier: string): (t: Tally<RestoreRequest>)
    ensures t.done + t.skipped + t.errors == |objects|
  {
    Run(MapSeq(objects, o => ThawStep(svc, bucket, basePath, days, tier, o)))
  }

  // Reference definition of what `thaw` does with each object.

  /** An object gets a restore request: under `base_path`, class known and cold. */
  predicate Restorable(svc: S3Service, basePath: string, o: S3Object)
  {
    StartsWith(o.key, basePath) && ClassOf(svc, o).Some? && IsCold(ClassOf(svc, o).value)
  }

  function RestorableFn(svc: S3Service, basePath: string): S3Object -> bool
  {
    (o: S3Object) => Restorable(svc, basePath, o)
  }

  function RequestFn(bucket: string, days: int, tier: string): S3Object -> RestoreRequest
  {
    (o: S3Object) => RestoreRequest(bucket, o.key, days, tier)
  }

  /** The counter an object lands in, decided from that object alone. */
  function FateOf(svc: S3Service, basePath: string, o: S3Object): Fate
  {
    if !StartsWith(o.key, basePath) then Skipped
    else match ClassOf(svc, o)
      case None => Failed
      case Some(c) =>
        if !IsCold(c) then Skipped
        else if svc.restoreFails(o.key) then Failed
        else Done
  }

  function HasFate(svc: S3Service, basePath: string, f: Fate): S3Object -> bool
  {
    (o: S3Object) => FateOf(svc, basePath, o) == f
  }

  /** The restore requests are exactly one per restorable object, in input
      order, each carrying the bucket, the object's key, `restore_days` and
      `retrieval_tier`; in particular no key outside `base_path` and no
      class outside the cold set is ever restored. */
  lemma {:induction false} ThawRequestsExactly(svc: S3Service, bucket: string, basePath: string, objects: seq<S3Object>, days: int, tier: string)
    ensures Thaw(svc, bucket, basePath, objects, days, tier).calls
            == MapSeq(Filter(objects, RestorableFn(svc, basePath)), RequestFn(bucket, days, tier))
  {
    var steps := MapSeq(objects, o => ThawStep(svc, bucket, basePath, days, tier, o));
    RunCallsAreRequests(objects, steps, RestorableFn(svc, basePath), RequestFn(bucket, days, tier));
  }

  /** Each counter counts the objects whose own fate it is, so a failing
      object is counted once and never stops the others from being handled. */
  lemma {:induction false} ThawCounts(svc: S3Service, bucket: string, basePath: string, objects: seq<S3Object>, days: int, tier: string)
    ensures Thaw(svc, bucket, basePath, objects, days, tier).done == |Filter(objects, HasFate(svc, basePath, Done))|
    ensures Thaw(svc, bucket, basePath, objects, days, tier).skipped == |Filter(objects, HasFate(svc, basePath, Skipped))|
    ensures Thaw(svc, bucket, basePath, objects, days, tier).errors == |Filter(objects, HasFate(svc, basePath, Failed))|
  {
    var steps := MapSeq(objects, o => ThawStep(svc, bucket, basePath, days, tier, o));
    RunCounts(steps);
    CountIsFilter(objects, steps, Done, HasFate(svc, basePath, Done));
    CountIsFilter(objects, steps, Skipped, HasFate(svc, basePath, Skipped));
    CountIsFilter(objects, steps, Failed, HasFate(svc, basePath, Failed));
  }

  /** One object whose restore (or metadata fetch) fails costs exactly one
      error: every other object is still restored. */
  lemma {:induction false} ThawOneFailure(svc: S3Service, bucket: string, basePath: string, objects: seq<S3Object>, days: int, tier: string, k: nat)
    requires k < |objects| && FateOf(svc, basePath, objects[k]) == Failed
    requires forall i :: 0 <= i < |objects| && i != k ==> FateOf(svc, basePath, objects[i]) == Done
    ensures Thaw(svc, bucket, basePath, objects, days, tier).done == |objects| - 1
    ensures Thaw(svc, bucket, basePath, objects, days, tier).errors == 1
    ensures Thaw(svc, bucket, basePath, objects, days, tier).skipped == 0
  {
    var steps := MapSeq(objects, o => ThawStep(svc, bucket, basePath, days, tier, o));
    RunCounts(steps);
    CountAllButOne(steps, Done, k);
  }

  /** Every request names a key under `base_path` with the caller's days and
      tier. */
  lemma ThawRequestsInScope(svc: S3Service, bucket: string, basePath: string, objects: seq<S3Object>, days: int, tier: string)
    ensures forall r :: r in Thaw(svc, bucket, basePath, objects, days, tier).calls ==>
              r.bucket == bucket && r.days == days && r.tier == tier && StartsWith(r.key, basePath)
  {
    ThawRequestsExactly(svc, bucket, basePath, objects, days, tier);
  }

  /** Restore failures do not change which requests are sent: the loop goes
      on after a failing object exactly as after a successful one. */
  lemma ThawRequestsIgnoreFailures(svc: S3Service, bucket: string, basePath: string, objects: seq<S3Object>, days: int, tier: string, restoreFails: string -> bool)
    ensures Thaw(svc.(restoreFails := restoreFails), bucket, basePath, objects, days, tier).calls
            == Thaw(svc, bucket, basePath, objects, days, tier).calls
  {
    var svc' := svc.(restoreFails := restoreFails);
    ThawRequestsExactly(svc, bucket, basePath, objects, days, tier);
    ThawRequestsExactly(svc', bucket, basePath, objects, days, tier);
    FilterCongruent(objects, RestorableFn(svc, basePath), RestorableFn(svc', basePath));
  }

  /** One iteration of `refreeze`'s loop: a copy for every listed object. */
  function RefreezeStep(svc: S3Service, bucket: string, target: S3Class, key: string): Step<CopyRequest>
  {
    Attempt(CopyRequest(bucket, key, target), svc.copyFails(key))
  }

  /** `refreeze(bucket, path, storage_class)` over the bucket's keys; the
      listing with `Prefix=path` yields the keys under `path`, in order. */
  function Refreeze(svc: S3Service, bucket: string, path: string, target: S3Class, keys: seq<string>): (t: Tally<CopyRequest>)
    ensures t.skipped == 0
    ensures t.done + t.errors == |Filter(keys, UnderPrefix(path))|
  {
    var steps := MapSeq(Filter(keys, UnderPrefix(path)), k => RefreezeStep(svc, bucket, target, k));
    CountZero(steps, Skipped);
    RunCounts(steps);
    Run(steps)
  }

  /** Every listed object gets one copy to the target class, whatever class
      it is in now, in listing order; the errors are the listed keys whose
      copy fails. */
  lemma {:induction false} RefreezeCopiesEveryListed(svc: S3Service, bucket: string, path: string, target: S3Class, keys: seq<string>)
    ensures var listed := Filter(keys, UnderPrefix(path));
            var t := Refreeze(svc, bucket, path, target, keys);
            |t.calls| == |listed|
            && (forall i :: 0 <= i < |listed| ==> t.calls[i] == CopyRequest(bucket, listed[i], target))
            && t.errors == |Filter(listed, svc.copyFails)|
  {
    var listed := Filter(keys, UnderPrefix(path));
    var steps := MapSeq(listed, k => RefreezeStep(svc, bucket, target, k));
    RunCallsOnePerStep(steps);
    RunCounts(steps);
    CountIsFilter(listed, steps, Failed, svc.copyFails);
  }

  /** The LocationConstraint `create_bucket` sends: the client's region,
      unless it is unset, empty or "us-east-1". */
  function LocationConstraint(region: Option<string>): (r: Option<string>)
    ensures r.Some? <==> Truthy(region) && region.value != "us-east-1"
    ensures r.Some? ==> r.value == region.value
  {
    if Truthy(region) && region.value != "us-east-1" then region else None
  }

  /** `create_bucket(bucket)` in the client's region. Every create error is
      a `ClientError`, so a conflict is reported as a creation error. */
  function CreateBucket(bucket: string, region: Option<string>, probe: Probe, response: CreateResponse): (a: CreateAttempt<CreateBucketRequest>)
    ensures a.request.Some? <==> probe == NotFound
    ensures a.request.Some? ==> a.request.value == CreateBucketRequest(bucket, LocationConstraint(region))
    ensures probe == Found ==> a.outcome == Fail(AlreadyExists(bucket))
    ensures probe == ProbeError ==> a.outcome == Fail(ProbeFailed(bucket))
    ensures a.outcome == Pass <==> probe == NotFound && response == Created
    ensures probe == NotFound && response != Created ==> a.outcome == Fail(CreateFailed(bucket))
  {
    Create(bucket, probe, CreateBucketRequest(bucket, LocationConstraint(region)), response, false)
  }
}

=== FILE: azure_client.dfy ===
/** `AzureBlobClient`: rehydration out of the Archive tier (`thaw`),
    re-tiering (`refreeze`), and the translations between Azure access tiers
    and the S3 storage-class vocabulary the rest of the system speaks. */
module AzureClient {
  import opened Wrappers
  import opened Strings
  import S3 = StorageClass
  import opened Batch
  import opened Buckets

  /** A blob's access tier as the SDK reports it. */
  datatype AzureTier = Hot | Cool | Cold | Archive | OtherTier(name: string)

  function TierName(t: AzureTier): string
  {
    match t
    case Hot => "Hot"
    case Cool => "Cool"
    case Cold => "Cold"
    case Archive => "Archive"
    case OtherTier(n) => n
  }

  function ParseTier(s: string): (t: AzureTier)
    ensures TierName(t) == s
    ensures t.OtherTier? <==> s !in ["Hot", "Cool", "Cold", "Archive"]
  {
    if s == "Hot" then Hot
    else if s == "Cool" then Cool
    else if s == "Cold" then Cold
    else if s == "Archive" then Archive
    else OtherTier(s)
  }

  /** `thaw`'s test `current_tier == "Archive"` on the SDK's tier string. */
  lemma ArchiveName(s: string)
    ensures ParseTier(s) == Archive <==> s == "Archive"
  {
  }

  datatype RehydratePriority = StandardPriority | High

  /** The rehydrate priority for an S3 retrieval tier: "Expedited" is the
      only tier that buys High; "Standard", "Bulk" (Azure has no bulk
      option) and anything else rehydrate at Standard priority. */
  function PriorityFor(retrievalTier: string): (p: RehydratePriority)
    ensures p == High <==> retrievalTier == "Expedited"
    ensures retrievalTier in ["Standard", "Bulk"] ==> p == StandardPriority
  {
    if retrievalTier == "Expedited" then High else StandardPriority
  }

  /** The service as these operations observe it: whether fetching a blob's
      properties fails, the tier they report, whether setting a tier fails. */
  datatype AzureService = AzureService(
    propertiesFail: string -> bool,
    tierOf: string -> AzureTier,
    setTierFails: string -> bool)

  /** `set_standard_blob_tier(tier, rehydrate_priority=...)` on one blob. */
  datatype SetTierRequest = SetTierRequest(container: string, key: string, tier: AzureTier, priority: Option<RehydratePriority>)

  /** `create_container(name)`. */
  datatype CreateContainerRequest = CreateContainerRequest(container: string)

  /** One iteration of `thaw`'s loop. Properties are fetched inside the
      `try`, so a failing fetch is an error, not an abort. */
  function ThawStep(svc: AzureService, container: string, basePath: string, priority: RehydratePriority, key: string): Step<SetTierRequest>
  {
    Examine(StartsWith(key, basePath),
            if svc.propertiesFail(key) then None else Some(svc.tierOf(key) == Archive),
            SetTierRequest(container, key, Hot, Some(priority)),
            svc.setTierFails(key))
  }

  /** `thaw(container, base_path, object_keys, restore_days, retrieval_tier)`
      over the objects' keys; `restore_days` has no effect on Azure, where
      rehydration changes the tier for good, so it is not a parameter. */
  function Thaw(svc: AzureService, container: string, basePath: string, keys: seq<string>, retrievalTier: string): (t: Tally<SetTierRequest>)
    ensures t.done + t.skipped + t.errors == |keys|
  {
    var priority := PriorityFor(retrievalTier);
    Run(MapSeq(keys, k => ThawStep(svc, container, basePath, priority, k)))
  }

  // Reference definition of what `thaw` does with each blob.

  predicate Rehydratable(svc: AzureService, basePath: string, key: string)
  {
    StartsWith(key, basePath) && !svc.propertiesFail(key) && svc.tierOf(key) == Archive
  }

  function RehydratableFn(svc: AzureService, basePath: string): string -> bool
  {
    (k: string) => Rehydratable(svc, basePath, k)
  }

  function RehydrateFn(container: string, priority: RehydratePriority): string -> SetTierRequest
  {
    (k: string) => SetTierRequest(container, k, Hot, Some(priority))
  }

  function FateOf(svc: AzureService, basePath: string, key: string): Fate
  {
    if !StartsWith(key, basePath) then Skipped
    else if svc.propertiesFail(key) then Failed
    else if svc.tierOf(key) != Archive then Skipped
    else if svc.setTierFails(key) then Failed
    else Done
  }

  function HasFate(svc: AzureService, basePath: string, f: Fate): string -> bool
  {
    (k: string) => FateOf(svc, basePath, k) == f
  }

  /** Exactly the Archive-tier blobs under `base_path` are moved to Hot, one
      request each, in input order, at the priority the retrieval tier maps to. */
  lemma {:induction false} ThawRequestsExactly(svc: AzureService, container: string, basePath: string, keys: seq<string>, retrievalTier: string)
    ensures Thaw(svc, container, basePath, keys, retrievalTier).calls
            == MapSeq(Filter(keys, RehydratableFn(svc, basePath)), RehydrateFn(container, PriorityFor(retrievalTier)))
  {
    var priority := PriorityFor(retrievalTier);
    var steps := MapSeq(keys, k => ThawStep(svc, container, basePath, priority, k));
    RunCallsAreRequests(keys, steps, RehydratableFn(svc, basePath), RehydrateFn(container, priority));
  }

  /** Each counter counts the blobs whose own fate it is; an `AzureError` on
      one blob is counted and the loop goes on. */
  lemma {:induction false} ThawCounts(svc: AzureService, container: string, basePath: string, keys: seq<string>, retrievalTier: string)
    ensures Thaw(svc, container, basePath, keys, retrievalTier).done == |Filter(keys, HasFate(svc, basePath, Done))|
    ensures Thaw(svc, container, basePath, keys, retrievalTier).skipped == |Filter(keys, HasFate(svc, basePath, Skipped))|
    ensures Thaw(svc, container, basePath, keys, retrievalTier).errors == |Filter(keys, HasFate(svc, basePath, Failed))|
  {
    var priority := PriorityFor(retrievalTier);
    var steps := MapSeq(keys, k => ThawStep(svc, container, basePath, priority, k));
    RunCounts(steps);
    CountIsFilter(keys, steps, Done, HasFate(svc, basePath, Done));
    CountIsFilter(keys, steps, Skipped, HasFate(svc, basePath, Skipped));
    CountIsFilter(keys, steps, Failed, HasFate(svc, basePath, Failed));
  }

  /** The tier `refreeze` moves blobs to for an S3 storage class: Cool for
      GLACIER_IR, Archive for GLACIER, DEEP_ARCHIVE and anything else. */
  function RefreezeTier(storageClass: S3.S3Class): (t: AzureTier)
    ensures t == Cool <==> storageClass == S3.GlacierIR
    ensures t != Cool ==> t == Archive
  {
    if storageClass == S3.GlacierIR then Cool else Archive
  }

  function RefreezeStep(svc: AzureService, container: string, target: AzureTier, key: string): Step<SetTierRequest>
  {
    Attempt(SetTierRequest(container, key, target, None), svc.setTierFails(key))
  }

  /** `refreeze(container, path, storage_class)` over the container's blob
      names; `list_blobs(name_starts_with=path)` yields those under `path`. */
  function Refreeze(svc: AzureService, container: string, path: string, storageClass: S3.S3Class, keys: seq<string>): (t: Tally<SetTierRequest>)
    ensures t.skipped == 0
    ensures t.done + t.errors == |Filter(keys, UnderPrefix(path))|
  {
    var target := RefreezeTier(storageClass);
    var steps := MapSeq(Filter(keys, UnderPrefix(path)), k => RefreezeStep(svc, container, target, k));
    CountZero(steps, Skipped);
    RunCounts(steps);
    Run(steps)
  }

  /** Every listed blob gets one tier change to the mapped tier, in listing
      order; the errors are the listed blobs whose tier change fails. */
  lemma {:induction false} RefreezeRetiersEveryListed(svc: AzureService, container: string, path: string, storageClass: S3.S3Class, keys: seq<string>)
    ensures var listed := Filter(keys, UnderPrefix(path));
            var t := Refreeze(svc, container, path, storageClass, keys);
            |t.calls| == |listed|
            && (forall i :: 0 <= i < |listed| ==>
                  t.calls[i] == SetTierRequest(container, listed[i], RefreezeTier(storageClass), None))
            && t.errors == |Filter(listed, svc.setTierFails)|
  {
    var listed := Filter(keys, UnderPrefix(path));
    var steps := MapSeq(listed, k => RefreezeStep(svc, container, RefreezeTier(storageClass), k));
    RunCallsOnePerStep(steps);
    RunCounts(steps);
    CountIsFilter(listed, steps, Failed, svc.setTierFails);
  }

  /** `_map_azure_tier_to_s3`: the S3 class `head_object` reports for a tier. */
  function TierToS3(t: AzureTier): (c: S3.S3Class)
    ensures c == S3.Glacier <==> t == Archive
    ensures c in {S3.Standard, S3.StandardIA, S3.OnezoneIA, S3.Glacier}
    ensures t.OtherTier? ==> c == S3.Standard
  {
    match t
    case Hot => S3.Standard
    case Cool => S3.StandardIA
    case Cold => S3.OnezoneIA
    case Archive => S3.Glacier
    case OtherTier(_) => S3.Standard
  }

  /** The tier `copy_object` sets on the destination blob. */
  function CopyTier(storageClass: S3.S3Class): (t: AzureTier)
    ensures t in {Hot, Cool, Archive}
    ensures t == Hot <==> storageClass == S3.Standard
    ensures t == Cool <==> storageClass == S3.StandardIA
  {
    match storageClass
    case Standard => Hot
    case StandardIA => Cool
    case _ => Archive
  }

  /** Copying a blob with the class `head_object` reports for it keeps its
      tier, except that Cold (reported as ONEZONE_IA) lands in Archive. */
  lemma CopyTierAfterReport(t: AzureTier)
    requires t in {Hot, Cool, Cold, Archive}
    ensures CopyTier(TierToS3(t)) == if t == Cold then Archive else t
  {
  }

  /** Reporting the tier a copy was given returns the class asked for, for
      STANDARD, STANDARD_IA and GLACIER; every other class reads back as GLACIER. */
  lemma ReportAfterCopyTier(c: S3.S3Class)
    ensures TierToS3(CopyTier(c)) == if c in {S3.Standard, S3.StandardIA} then c else S3.Glacier
  {
  }

  /** `_format_restore_header`: the S3 `Restore` header for a blob. */
  function FormatRestoreHeader(tier: AzureTier, archiveStatus: Option<string>): (h: Option<string>)
    ensures h == Some("ongoing-request=\"true\"") <==>
              tier == Archive && archiveStatus in {Some("rehydrate-pending-to-hot"), Some("rehydrate-pending-to-cool")}
    ensures h == Some("ongoing-request=\"false\"") <==> (tier == Hot || tier == Cool) && Truthy(archiveStatus)
    ensures h.Some? ==> h.value in {"ongoing-request=\"true\"", "ongoing-request=\"false\""}
  {
    if tier == Archive then
      if archiveStatus in {Some("rehydrate-pending-to-hot"), Some("rehydrate-pending-to-cool")} then
        Some("ongoing-request=\"true\"")
      else None
    else if (tier == Hot || tier == Cool) && Truthy(archiveStatus) then
      Some("ongoing-request=\"false\"")
    else None
  }

  /** The `StorageClass` and `Restore` fields of `head_object`'s response. */
  datatype HeadReport = HeadReport(storageClass: S3.S3Class, restore: Option<string>)

  /** `head_object`: the tier reported as an S3 class, and the restore
      header. The two fields agree the way an S3 caller expects: a restore
      still in progress is reported on a GLACIER object, a finished one on a
      STANDARD or STANDARD_IA object. */
  function HeadObject(tier: AzureTier, archiveStatus: Option<string>): (h: HeadReport)
    ensures h.storageClass == S3.Glacier <==> tier == Archive
    ensures h.restore == Some("ongoing-request=\"true\"") ==> h.storageClass == S3.Glacier
    ensures h.restore == Some("ongoing-request=\"false\"") ==> h.storageClass in {S3.Standard, S3.StandardIA}
    ensures tier.OtherTier? ==> h == HeadReport(S3.Standard, None)
    ensures h.restore == FormatRestoreHeader(tier, archiveStatus)
    ensures h.storageClass == TierToS3(tier)
  {
    HeadReport(TierToS3(tier), FormatRestoreHeader(tier, archiveStatus))
  }

  /** `create_bucket(name)`: a `ResourceExistsError` from the create call
      reads as "already exists". */
  function CreateBucket(container: string, probe: Probe, response: CreateResponse): (a: CreateAttempt<CreateContainerRequest>)
    ensures a.request.Some? <==> probe == NotFound
    ensures a.request.Some? ==> a.request.value == CreateContainerRequest(container)
    ensures a.outcome == Pass <==> probe == NotFound && response == Created
    ensures probe == Found || (probe == NotFound && response == Conflict) ==> a.outcome == Fail(AlreadyExists(container))
    ensures probe == ProbeError ==> a.outcome == Fail(ProbeFailed(container))
    ensures probe == NotFound && response == CreateError ==> a.outcome == Fail(CreateFailed(container))
  {
    Create(container, probe, CreateContainerRequest(container), response, true)
  }
}

=== FILE: batch.dfy ===
/** The per-object loop shared by every provider's `thaw` and `refreeze`:
    each object is examined once, at most one SDK call is issued for it, and
    exactly one of three counters is incremented (restored/refrozen,
    skipped, errors). A failing object is counted and the loop goes on. */
module Batch {
  import opened Wrappers
  import opened Strings

  /** What became of one object. */
  datatype Fate = Done | Skipped | Failed

  /** One object's pass through the loop body: its fate and the SDK call
      issued for it, if any (a call that then failed is still issued). */
  datatype Step<C> = Step(fate: Fate, call: Option<C>)

  /** The loop's counters and the calls it issued, in order. */
  datatype Tally<C> = Tally(done: nat, skipped: nat, errors: nat, calls: seq<C>)

  /** One loop iteration: bump the counter of the step's fate, log its call. */
  function Record<C>(t: Tally<C>, s: Step<C>): Tally<C>
  {
    var counted := match s.fate
      case Done => t.(done := t.done + 1)
      case Skipped => t.(skipped := t.skipped + 1)
      case Failed => t.(errors := t.errors + 1);
    match s.call
    case Some(c) => counted.(calls := counted.calls + [c])
    case None => counted
  }

  /** The whole loop, front to back. No step can stop it, so every object
      lands in exactly one counter. */
  function Run<C>(steps: seq<Step<C>>): (t: Tally<C>)
    ensures t.done + t.skipped + t.errors == |steps|
    ensures |t.calls| <= |steps|
  {
    if steps == [] then Tally(0, 0, 0, [])
    else Record(Run(steps[..|steps| - 1]), steps[|steps| - 1])
  }

  /** Number of steps with a given fate. */
  function Count<C>(steps: seq<Step<C>>, f: Fate): nat
  {
    if steps == [] then 0
    else Count(steps[..|steps| - 1], f) + (if steps[|steps| - 1].fate == f then 1 else 0)
  }

  /** Number of steps that issued a call. */
  function CountCalls<C>(steps: seq<Step<C>>): nat
  {
    if steps == [] then 0
    else CountCalls(steps[..|steps| - 1]) + (if steps[|steps| - 1].call.Some? then 1 else 0)
  }

  /** Each counter equals the number of objects with that fate. */
  lemma {:induction false} RunCounts<C>(steps: seq<Step<C>>)
    ensures Run(steps).done == Count(steps, Done)
    ensures Run(steps).skipped == Count(steps, Skipped)
    ensures Run(steps).errors == Count(steps, Failed)
    ensures |Run(steps).calls| == CountCalls(steps)
  {
    if steps != [] {
      RunCounts(steps[..|steps| - 1]);
    }
  }

  /** A call is issued exactly when some object's step issues it. */
  lemma {:induction false} RunCallsMembership<C>(steps: seq<Step<C>>, c: C)
    ensures c in Run(steps).calls <==> exists i :: 0 <= i < |steps| && steps[i].call == Some(c)
  {
    if steps != [] {
      var init := steps[..|steps| - 1];
      RunCallsMembership(init, c);
      if c in Run(init).calls {
        var i :| 0 <= i < |init| && init[i].call == Some(c);
        assert steps[i] == init[i];
      }
      if exists i :: 0 <= i < |steps| && steps[i].call == Some(c) {
        var i :| 0 <= i < |steps| && steps[i].call == Some(c);
        if i < |init| {
          assert init[i] == steps[i];
        }
      }
    }
  }

  /** When every object issues a call, the calls are those of the objects,
      one each, in the objects' order. */
  lemma {:induction false} RunCallsOnePerStep<C>(steps: seq<Step<C>>)
    requires forall i :: 0 <= i < |steps| ==> steps[i].call.Some?
    ensures |Run(steps).calls| == |steps|
    ensures forall i :: 0 <= i < |steps| ==> Run(steps).calls[i] == steps[i].call.value
  {
    if steps != [] {
      var init := steps[..|steps| - 1];
      RunCallsOnePerStep(init);
    }
  }

  /** No object has fate `f` exactly when the count of `f` is zero. */
  lemma {:induction false} CountZero<C>(steps: seq<Step<C>>, f: Fate)
    ensures Count(steps, f) == 0 <==> forall i :: 0 <= i < |steps| ==> steps[i].fate != f
  {
    if steps != [] {
      var init := steps[..|steps| - 1];
      CountZero(init, f);
      assert forall i :: 0 <= i < |init| ==> init[i] == steps[i];
    }
  }

  /** If all objects but the `k`-th have fate `f`, and it has another fate,
      `f` is counted `n - 1` times and the `k`-th object's fate once. */
  lemma {:induction false} CountAllButOne<C>(steps: seq<Step<C>>, f: Fate, k: nat)
    requires k < |steps| && steps[k].fate != f
    requires forall i :: 0 <= i < |steps| && i != k ==> steps[i].fate == f
    ensures Count(steps, f) == |steps| - 1
    ensures Count(steps, steps[k].fate) == 1
  {
    var init := steps[..|steps| - 1];
    if k == |steps| - 1 {
      CountEvery(init, f);
      CountZero(init, steps[k].fate);
    } else {
      CountAllButOne(init, f, k);
    }
  }

  lemma {:induction false} CountEvery<C>(steps: seq<Step<C>>, f: Fate)
    requires forall i :: 0 <= i < |steps| ==> steps[i].fate == f
    ensures Count(steps, f) == |steps|
  {
    if steps != [] {
      CountEvery(steps[..|steps| - 1], f);
    }
  }

  /** If object `i` issues a call exactly when it passes `keep`, and that
      call is `request(items[i])`, the calls issued are one request per
      passing object, in the objects' order. */
  lemma {:induction false} RunCallsAreRequests<T, C>(items: seq<T>, steps: seq<Step<C>>, keep: T -> bool, request: T -> C)
    requires |steps| == |items|
    requires forall i :: 0 <= i < |items| ==>
               steps[i].call == (if keep(items[i]) then Some(request(items[i])) else None)
    ensures Run(steps).calls == MapSeq(Filter(items, keep), request)
  {
    if items != [] {
      var n := |items| - 1;
      RunCallsAreRequests(items[..n], steps[..n], keep, request);
      RunCallsLast(steps);
      assert items == items[..n] + [items[n]];
      FilterAppend(items[..n], [items[n]], keep);
      FilterSingleton(items[n], keep);
      MapSeqAppend(Filter(items[..n], keep), Filter([items[n]], keep), request);
    }
  }

  /** The last step appends its call, if any, to the calls before it. */
  lemma {:induction false} RunCallsLast<C>(steps: seq<Step<C>>)
    requires steps != []
    ensures Run(steps).calls == Run(steps[..|steps| - 1]).calls
              + (if steps[|steps| - 1].call.Some? then [steps[|steps| - 1].call.value] else [])
  {
    var before, last := Run(steps[..|steps| - 1]), steps[|steps| - 1];
    assert Run(steps) == Record(before, last);
    RecordCalls(before, last);
  }

  lemma RecordCalls<C>(t: Tally<C>, s: Step<C>)
    ensures Record(t, s).calls == t.calls + (if s.call.Some? then [s.call.value] else [])
  {
  }

  lemma MapSeqAppend<T, U>(a: seq<T>, b: seq<T>, f: T -> U)
    ensures MapSeq(a + b, f) == MapSeq(a, f) + MapSeq(b, f)
  {
  }

  /** Each counter is the number of objects whose own step has that fate:
      what happens to one object never changes how another is counted. */
  lemma {:induction false} CountIsFilter<T, C>(items: seq<T>, steps: seq<Step<C>>, f: Fate, p: T -> bool)
    requires |steps| == |items|
    requires forall i :: 0 <= i < |items| ==> (steps[i].fate == f <==> p(items[i]))
    ensures Count(steps, f) == |Filter(items, p)|
  {
    if items != [] {
      var n := |items| - 1;
      assert steps[..|steps| - 1] == steps[..n];
      CountIsFilter(items[..n], steps[..n], f, p);
      assert items == items[..n] + [items[n]];
      FilterAppend(items[..n], [items[n]], p);
      FilterSingleton(items[n], p);
    }
  }

  /** The step of an object that is first checked to be in scope, then
      examined (`lookup` is None when the metadata fetch fails, else whether
      the object is cold), and finally sent `call` if it is cold. */
  function Examine<C>(inScope: bool, lookup: Option<bool>, call: C, fails: bool): (s: Step<C>)
    ensures s.call.Some? <==> inScope && lookup == Some(true)
    ensures s.call.Some? ==> s.call.value == call
    ensures s.fate == Done <==> inScope && lookup == Some(true) && !fails
    ensures s.fate == Failed <==> inScope && (lookup == None || (lookup == Some(true) && fails))
  {
    if !inScope then Step(Skipped, None)
    else match lookup
      case None => Step(Failed, None)
      case Some(cold) => if cold then Attempt(call, fails) else Step(Skipped, None)
  }

  /** A step for an object whose single call is always issued: done unless
      the SDK call fails. */
  function Attempt<C>(call: C, fails: bool): (s: Step<C>)
    ensures s.call == Some(call)
    ensures s.fate == Failed <==> fails
    ensures s.fate != Skipped
  {
    Step(if fails then Failed else Done, Some(call))
  }
}

=== FILE: buckets.dfy ===
/** Bucket (container) operations whose logic is the same for AWS, Azure
    and GCP: the existence probe's reading, the `create_bucket` error
    classes, and `list_buckets`' optional prefix filter. */
module Buckets {
  import opened Wrappers
  import opened Strings

  /** The `ActionError`s bucket operations raise. */
  datatype BucketError =
    | AlreadyExists(bucket: string)  // "Bucket/Container ... already exists"
    | ProbeFailed(bucket: string)    // the existence check itself failed
    | CreateFailed(bucket: string)   // "Error creating bucket ..."

  /** What the provider's existence probe answered: the bucket's metadata,
      a not-found error, or any other service error. */
  datatype Probe = Found | NotFound | ProbeError

  /** The create call's answer: created, a conflict (the name was taken in
      the meantime), or another service error. */
  datatype CreateResponse = Created | Conflict | CreateError

  /** The create request a `create_bucket` sent, if it got that far, and
      whether it returned or raised. */
  datatype CreateAttempt<C> = CreateAttempt(request: Option<C>, outcome: Outcome<BucketError>)

  /** `bucket_exists`: true on metadata, false on not-found, raises on any
      other error. */
  function BucketExists(bucket: string, probe: Probe): (r: Result<bool, BucketError>)
    ensures r == Success(true) <==> probe == Found
    ensures r == Success(false) <==> probe == NotFound
    ensures r.Failure? <==> probe == ProbeError
    ensures r.Failure? ==> r.error == ProbeFailed(bucket)
  {
    match probe
    case Found => Success(true)
    case NotFound => Success(false)
    case ProbeError => Failure(ProbeFailed(bucket))
  }

  /** `create_bucket`: probe first and refuse an existing bucket; otherwise
      send `request` and translate the service's answer. A conflict on the
      create call reads as "already exists" where the provider has a
      dedicated exception for it (`conflictIsExists`), and as a plain
      creation error where it does not. */
  function Create<C>(bucket: string, probe: Probe, request: C, response: CreateResponse, conflictIsExists: bool): (a: CreateAttempt<C>)
    ensures a.request.Some? <==> BucketExists(bucket, probe) == Success(false)
    ensures a.request.Some? ==> a.request.value == request
    ensures a.outcome == Pass <==> probe == NotFound && response == Created
    ensures probe == Found ==> a.outcome == Fail(AlreadyExists(bucket))
    ensures probe == ProbeError ==> a.outcome == Fail(ProbeFailed(bucket))
    ensures probe == NotFound && response == Conflict ==>
              a.outcome == Fail(if conflictIsExists then AlreadyExists(bucket) else CreateFailed(bucket))
    ensures probe == NotFound && response == CreateError ==> a.outcome == Fail(CreateFailed(bucket))
  {
    match BucketExists(bucket, probe)
    case Failure(e) => CreateAttempt(None, Fail(e))
    case Success(true) => CreateAttempt(None, Fail(AlreadyExists(bucket)))
    case Success(false) =>
      var outcome := match response
        case Created => Pass
        case Conflict => Fail(if conflictIsExists then AlreadyExists(bucket) else CreateFailed(bucket))
        case CreateError => Fail(CreateFailed(bucket));
      CreateAttempt(Some(request), outcome)
  }

  /** `list_buckets(prefix)`: the names starting with `prefix`, in listing
      order; every name when `prefix` is None or empty. */
  function ListBuckets(names: seq<string>, prefix: Option<string>): (r: seq<string>)
    ensures forall i :: 0 <= i < |r| ==> r[i] in names
    ensures Truthy(prefix) ==> forall i :: 0 <= i < |r| ==> StartsWith(r[i], prefix.value)
    ensures forall i :: 0 <= i < |names| && (!Truthy(prefix) || StartsWith(names[i], prefix.value)) ==> names[i] in r
    ensures !Truthy(prefix) ==> r == names
  {
    if Truthy(prefix) then Filter(names, UnderPrefix(prefix.value)) else names
  }

  /** Listing two runs of names lists each run in turn: the result keeps
      the listing's order and repeats. */
  lemma ListBucketsAppend(a: seq<string>, b: seq<string>, prefix: Option<string>)
    ensures ListBuckets(a + b, prefix) == ListBuckets(a, prefix) + ListBuckets(b, prefix)
  {
    if Truthy(prefix) {
      FilterAppend(a, b, UnderPrefix(prefix.value));
    }
  }

  /** One name is listed exactly when it passes the prefix test. */
  lemma ListBucketsSingleton(name: string, prefix: Option<string>)
    ensures ListBuckets([name], prefix) == if !Truthy(prefix) || StartsWith(name, prefix.value) then [name] else []
  {
    if Truthy(prefix) {
      FilterSingleton(name, UnderPrefix(prefix.value));
    }
  }

  /** When every name starts with the prefix, the listing comes back whole. */
  lemma ListBucketsKeepsAll(names: seq<string>, prefix: Option<string>)
    requires Truthy(prefix) ==> forall i :: 0 <= i < |names| ==> StartsWith(names[i], prefix.value)
    ensures ListBuckets(names, prefix) == names
  {
    if Truthy(prefix) {
      FilterKeepsAll(names, UnderPrefix(prefix.value));
    }
  }
}

=== FILE: cli.dfy ===
/** Decision rules of the `deepfreeze` command line: which thaw mode a
    combination of options selects, which thaw requests a refreeze targets,
    how `setup` makes name prefixes acceptable to Azure, and the choice
    lists the options accept. */
module Cli {
  import opened Wrappers
  import opened Strings
  import Config
  import S3Client
  import AzureClient

  datatype CliError =
    | NoMode            // "Must specify one of: ..."
    | ConflictingModes  // "Cannot use --start-date/--end-date with ..."
    | MissingDate       // "Both --start-date and --end-date are required ..."
    | Aborted           // the Azure name conversion was declined

  /** What `thaw` was asked to do. */
  datatype ThawMode =
    | CreateRequest(startDate: string, endDate: string)
    | CheckStatus(requestId: Option<string>)  // None: report on every request
    | ListRequests

  /** The thaw command's mode options. `--check-status` given without a
      value arrives as `Some("")`. */
  datatype ThawArgs = ThawArgs(startDate: Option<string>, endDate: Option<string>, checkStatus: Option<string>, list: bool)

  predicate CreateActive(a: ThawArgs)
  {
    Truthy(a.startDate) || Truthy(a.endDate)
  }

  /** `sum([bool(start or end), check_status is not None, bool(list)])`. */
  function ActiveModes(a: ThawArgs): nat
  {
    (if CreateActive(a) then 1 else 0) + (if a.checkStatus.Some? then 1 else 0) + (if a.list then 1 else 0)
  }

  /** The request id a status check reports on: the given id, or None when
      the option was absent or empty. */
  function RequestId(checkStatus: Option<string>): (r: Option<string>)
    ensures r.Some? <==> Truthy(checkStatus)
    ensures r.Some? ==> r == checkStatus
  {
    if checkStatus.Some? && checkStatus.value != "" then checkStatus else None
  }

  /** `thaw`'s option validation, before date parsing. */
  function ValidateThaw(a: ThawArgs): (r: Result<ThawMode, CliError>)
    ensures r == Failure(NoMode) <==> ActiveModes(a) == 0
    ensures r == Failure(ConflictingModes) <==> ActiveModes(a) > 1
    ensures r == Failure(MissingDate) <==> ActiveModes(a) == 1 && CreateActive(a) && !(Truthy(a.startDate) && Truthy(a.endDate))
    ensures r.Success? ==> ActiveModes(a) == 1
    ensures r.Success? ==> (r.value.CreateRequest? <==> CreateActive(a))
                           && (r.value.CheckStatus? <==> a.checkStatus.Some?)
                           && (r.value.ListRequests? <==> a.list)
    ensures r.Success? && r.value.CreateRequest? ==> r.value == CreateRequest(a.startDate.value, a.endDate.value)
    ensures r.Success? && r.value.CheckStatus? ==> r.value.requestId == RequestId(a.checkStatus)
  {
    if ActiveModes(a) == 0 then Failure(NoMode)
    else if ActiveModes(a) > 1 then Failure(ConflictingModes)
    else if CreateActive(a) && !(Truthy(a.startDate) && Truthy(a.endDate)) then Failure(MissingDate)
    else if CreateActive(a) then Success(CreateRequest(a.startDate.value, a.endDate.value))
    else if a.checkStatus.Some? then Success(CheckStatus(RequestId(a.checkStatus)))
    else Success(ListRequests)
  }

  /** A mode the validation can produce: dates are non-empty and a named
      request id is non-empty. */
  predicate WellFormed(m: ThawMode)
  {
    match m
    case CreateRequest(s, e) => s != "" && e != ""
    case CheckStatus(id) => id != Some("")
    case ListRequests => true
  }

  /** The options that ask for a mode: the inverse of `ValidateThaw`. */
  function ArgsFor(m: ThawMode): ThawArgs
  {
    match m
    case CreateRequest(s, e) => ThawArgs(Some(s), Some(e), None, false)
    case CheckStatus(id) => ThawArgs(None, None, if id.None? then Some("") else id, false)
    case ListRequests => ThawArgs(None, None, None, true)
  }

  /** Every well-formed mode is reachable, and from exactly the options
      that name it. */
  lemma ValidateThawRoundTrip(m: ThawMode)
    requires WellFormed(m)
    ensures ValidateThaw(ArgsFor(m)) == Success(m)
  {
  }

  /** Whatever the validation accepts is well formed. */
  lemma ValidateThawWellFormed(a: ThawArgs)
    requires ValidateThaw(a).Success?
    ensures WellFormed(ValidateThaw(a).value)
  {
  }

  datatype RefreezeScope = AllOpenRequests | OneRequest(id: string)

  /** `refreeze`: every open thaw request exactly when no id is given. An
      empty id is passed on as it is, unlike `--check-status ""`. */
  function RefreezeScopeOf(thawRequestId: Option<string>): (r: RefreezeScope)
    ensures r == AllOpenRequests <==> thawRequestId.None?
    ensures r.OneRequest? ==> r.id == thawRequestId.value
  {
    if thawRequestId.None? then AllOpenRequests else OneRequest(thawRequestId.value)
  }

  /** The name prefixes `setup` takes (each may be unset). */
  datatype NamePrefixes = NamePrefixes(bucket: Option<string>, repo: Option<string>, basePath: Option<string>)

  /** An underscore in a set, non-empty prefix, which Azure refuses. */
  predicate NeedsConversion(v: Option<string>)
  {
    Truthy(v) && '_' in v.value
  }

  function Convert(v: Option<string>): (r: Option<string>)
    ensures r.Some? <==> v.Some?
    ensures r.Some? ==> |r.value| == |v.value| && '_' !in r.value
    ensures r.Some? ==> forall i :: 0 <= i < |v.value| ==> r.value[i] == (if v.value[i] == '_' then '-' else v.value[i])
  {
    if NeedsConversion(v) then Some(ReplaceChar(v.value, '_', '-')) else v
  }

  /** `setup`'s Azure conversion: for provider "azure", each prefix with an
      underscore has every underscore turned into a hyphen once the user
      confirms (`confirm`), and the command aborts if they decline; other
      prefixes and other providers are left alone. */
  function ConvertAzureNames(provider: string, names: NamePrefixes, confirm: bool): (r: Result<NamePrefixes, CliError>)
    ensures provider != "azure" ==> r == Success(names)
    ensures r.Failure? <==> provider == "azure" && !confirm
                            && (NeedsConversion(names.bucket) || NeedsConversion(names.repo) || NeedsConversion(names.basePath))
    ensures r.Failure? ==> r.error == Aborted
    ensures r.Success? && provider == "azure" ==>
              r.value == NamePrefixes(Convert(names.bucket), Convert(names.repo), Convert(names.basePath))
  {
    if provider != "azure" then Success(names)
    else if !(NeedsConversion(names.bucket) || NeedsConversion(names.repo) || NeedsConversion(names.basePath)) then
      Success(names)
    else if !confirm then Failure(Aborted)
    else Success(NamePrefixes(Convert(names.bucket), Convert(names.repo), Convert(names.basePath)))
  }

  /** Converted names need no further conversion: running `setup` again on
      them asks nothing and changes nothing. */
  lemma ConvertAzureNamesIdempotent(provider: string, names: NamePrefixes, confirm: bool, confirmAgain: bool)
    requires ConvertAzureNames(provider, names, confirm).Success?
    ensures var once := ConvertAzureNames(provider, names, confirm).value;
            ConvertAzureNames(provider, once, confirmAgain) == Success(once)
  {
  }

  /** A prefix without underscores is kept exactly. */
  lemma ConvertKeepsClean(v: Option<string>)
    requires !NeedsConversion(v)
    ensures Convert(v) == v
  {
  }

  // The option choice lists of `setup` and `thaw`.

  const ProviderChoices: seq<string> := ["aws", "azure", "gcp"]
  const StyleChoices: seq<string> := ["oneup"]
  const RetrievalTierChoices: seq<string> := ["Standard", "Expedited", "Bulk"]
  const CannedAclChoices: seq<string> := [
    "private", "public-read", "public-read-write", "authenticated-read",
    "log-delivery-write", "bucket-owner-read", "bucket-owner-full-control"]
  const StorageClassChoices: seq<string> := [
    "standard", "reduced_redundancy", "standard_ia", "intelligent_tiering", "onezone_ia"]

  /** The command line and the legacy validators accept the same canned
      ACLs and storage classes; of the styles the command line offers only
      "oneup", which the validator accepts. */
  lemma ChoicesAgreeWithConfig(v: string)
    ensures v in CannedAclChoices <==> Config.CheckCannedAcl(v).Success?
    ensures v in StorageClassChoices <==> Config.CheckStorageClass(v).Success?
    ensures v in StyleChoices ==> Config.CheckStyle(v).Success?
  {
  }

  /** Of the providers the command line offers, the factory builds a client
      for "aws" and "azure" and refuses "gcp". */
  lemma ProviderChoicesAgainstFactory(p: string)
    requires p in ProviderChoices
    ensures S3Client.ClientFactory(p).Success? <==> p != "gcp"
  {
  }

  /** The retrieval tiers `thaw` offers include the interface default, and
      on Azure only "Expedited" buys High priority. */
  lemma RetrievalTierChoicesAgainstAzure()
    ensures S3Client.DefaultRetrievalTier in RetrievalTierChoices
    ensures forall t :: t in RetrievalTierChoices ==> (AzureClient.PriorityFor(t) == AzureClient.High <==> t == "Expedited")
  {
  }
}

=== FILE: config.dfy ===
/** The field validators of the legacy settings class: `style`,
    `canned_acl` and `storage_class` must each be one of a fixed list, and
    an accepted value is kept exactly as given. */
module Config {
  import opened Wrappers

  /** The `ValueError` a validator raises, with its message. */
  datatype ConfigError = InvalidValue(message: string)

  const Styles: seq<string> := ["monthly", "oneup"]

  const CannedAcls: seq<string> := [
    "private", "public-read", "public-read-write", "authenticated-read",
    "log-delivery-write", "bucket-owner-read", "bucket-owner-full-control"]

  const StorageClasses: seq<string> := [
    "standard", "reduced_redundancy", "standard_ia", "intelligent_tiering", "onezone_ia"]

  /** The shape all three validators share. */
  function Check(v: string, allowed: seq<string>, message: string): (r: Result<string, ConfigError>)
    ensures r.Success? <==> v in allowed
    ensures r.Success? ==> r.value == v
    ensures r.Failure? ==> r.error == InvalidValue(message)
  {
    if v in allowed then Success(v) else Failure(InvalidValue(message))
  }

  function CheckStyle(v: string): (r: Result<string, ConfigError>)
    ensures r.Success? <==> v == "monthly" || v == "oneup"
    ensures r.Success? ==> r.value == v
    ensures r.Failure? ==> r.error == InvalidValue("style must be one of monthly, oneup")
  {
    Check(v, Styles, "style must be one of monthly, oneup")
  }

  function CheckCannedAcl(v: string): (r: Result<string, ConfigError>)
    ensures r.Success? <==> v in CannedAcls
    ensures r.Success? ==> r.value == v
    ensures r.Failure? ==> r.error == InvalidValue("unknown value for canned_acl")
  {
    Check(v, CannedAcls, "unknown value for canned_acl")
  }

  function CheckStorageClass(v: string): (r: Result<string, ConfigError>)
    ensures r.Success? <==> v in StorageClasses
    ensures r.Success? ==> r.value == v
    ensures r.Failure? ==> r.error == InvalidValue("unknown value for storage_class")
  {
    Check(v, StorageClasses, "unknown value for storage_class")
  }

  /** Validation is idempotent: a value that passed passes again unchanged,
      so loading a saved configuration twice cannot change it. */
  lemma ChecksIdempotent(v: string)
    ensures CheckStyle(v).Success? ==> CheckStyle(CheckStyle(v).value) == CheckStyle(v)
    ensures CheckCannedAcl(v).Success? ==> CheckCannedAcl(CheckCannedAcl(v).value) == CheckCannedAcl(v)
    ensures CheckStorageClass(v).Success? ==> CheckStorageClass(CheckStorageClass(v).value) == CheckStorageClass(v)
  {
  }

  /** The lists are case-sensitive: the S3 API's own upper-case class names
      are refused. */
  lemma StorageClassIsLowerCase()
    ensures CheckStorageClass("STANDARD").Failure?
    ensures CheckStorageClass("standard") == Success("standard")
  {
  }
}

=== FILE: decimal.dfy ===
/** Decimal digit strings: `str(n)`, `int(s)`, the zero-padded integer
    format `f"{n:0W}"`, and incrementing a suffix such as "0002" to "0003". */
module Decimal {
  import opened Strings

  predicate IsDigit(c: char)
  {
    '0' <= c <= '9'
  }

  predicate AllDigits(s: string)
  {
    forall i :: 0 <= i < |s| ==> IsDigit(s[i])
  }

  predicate AllNines(s: string)
  {
    forall i :: 0 <= i < |s| ==> s[i] == '9'
  }

  function DigitChar(d: nat): char
    requires d < 10
  {
    (48 + d) as char
  }

  function DigitValue(c: char): nat
    requires IsDigit(c)
  {
    c as int - 48
  }

  function Pow10(k: nat): nat
  {
    if k == 0 then 1 else 10 * Pow10(k - 1)
  }

  /** `int(s)` for a string of ASCII digits (leading zeros allowed). */
  function Value(s: string): nat
    requires AllDigits(s)
  {
    if s == [] then 0 else Value(s[..|s| - 1]) * 10 + DigitValue(s[|s| - 1])
  }

  /** `str(n)` for a non-negative integer: no leading zeros, "0" for zero. */
  function Digits(n: nat): (s: string)
    ensures AllDigits(s) && 1 <= |s|
  {
    if n < 10 then [DigitChar(n)] else Digits(n / 10) + [DigitChar(n % 10)]
  }

  /** Left-pads `s` with '0' to at least `width` characters. */
  function ZeroPad(s: string, width: nat): (r: string)
    ensures |r| == if |s| >= width then |s| else width
  {
    if |s| >= width then s else seq(width - |s|, _ => '0') + s
  }

  /** `format(n, "0Wd")`: sign-aware zero padding to a total width `W`, so
      a negative value keeps its '-' in front of the padding. */
  function FormatPadded(n: int, width: nat): string
  {
    if n >= 0 then ZeroPad(Digits(n), width)
    else "-" + ZeroPad(Digits(-n), if width > 0 then width - 1 else 0)
  }

  /** Parsing the decimal rendering gives the number back. */
  lemma {:induction false} ValueOfDigits(n: nat)
    ensures Value(Digits(n)) == n
  {
    var s := Digits(n);
    if n < 10 {
      assert s[..|s| - 1] == [];
    } else {
      assert s[..|s| - 1] == Digits(n / 10);
      ValueOfDigits(n / 10);
    }
  }

  /** A number below 10^w needs at most `w` digits. */
  lemma {:induction false} DigitsFit(n: nat, w: nat)
    requires 1 <= w && n < Pow10(w)
    ensures |Digits(n)| <= w
  {
    if n >= 10 {
      assert w != 1;
      assert n / 10 < Pow10(w - 1);
      DigitsFit(n / 10, w - 1);
    }
  }

  lemma {:induction false} ValueAppend(a: string, b: string)
    requires AllDigits(a) && AllDigits(b)
    ensures AllDigits(a + b)
    ensures Value(a + b) == Value(a) * Pow10(|b|) + Value(b)
  {
    if b == [] {
      assert a + b == a;
    } else {
      var b' := b[..|b| - 1];
      assert (a + b)[..|a + b| - 1] == a + b';
      assert (a + b)[|a + b| - 1] == b[|b| - 1];
      ValueAppend(a, b');
      ShiftDigit(Value(a), Pow10(|b'|), Value(b'), DigitValue(b[|b| - 1]));
    }
  }

  lemma ShiftDigit(x: int, p: int, y: int, d: int)
    ensures (x * p + y) * 10 + d == x * (10 * p) + (y * 10 + d)
  {
  }

  lemma LeadingDigitDominates(da: int, db: int, p: int, ra: int, rb: int)
    requires da > db && 0 <= ra < p && 0 <= rb < p
    ensures da * p + ra > db * p + rb
  {
    assert da * p >= (db + 1) * p;
  }

  lemma {:induction false} ValueBelowPow10(s: string)
    requires AllDigits(s)
    ensures Value(s) < Pow10(|s|)
  {
    if s != [] {
      ValueBelowPow10(s[..|s| - 1]);
    }
  }

  lemma {:induction false} ValueOfZeros(k: nat)
    ensures AllDigits(seq(k, _ => '0'))
    ensures Value(seq(k, _ => '0')) == 0
  {
    if k > 0 {
      assert seq(k, _ => '0')[..k - 1] == seq(k - 1, _ => '0');
      ValueOfZeros(k - 1);
    }
  }

  /** Leading zeros do not change the parsed value. */
  lemma ValueOfZeroPad(s: string, width: nat)
    requires AllDigits(s)
    ensures AllDigits(ZeroPad(s, width))
    ensures Value(ZeroPad(s, width)) == Value(s)
  {
    if |s| < width {
      ValueOfZeros(width - |s|);
      ValueAppend(seq(width - |s|, _ => '0'), s);
    }
  }

  /** Rendering with `format(n, "0Wd")` and parsing back is the identity on
      non-negative values that fit in `W` digits, and the text is exactly
      `W` digits wide. */
  lemma FormatPaddedRoundTrip(n: nat, width: nat)
    requires 1 <= width && n < Pow10(width)
    ensures |FormatPadded(n, width)| == width
    ensures AllDigits(FormatPadded(n, width))
    ensures Value(FormatPadded(n, width)) == n
  {
    DigitsFit(n, width);
    ValueOfZeroPad(Digits(n), width);
    ValueOfDigits(n);
  }

  /** For digit strings of one width, numeric order is lexicographic order,
      so `sorted` puts such suffixes in numeric order. */
  lemma {:induction false} ValueOrderIsLexOrder(a: string, b: string)
    requires AllDigits(a) && AllDigits(b) && |a| == |b|
    requires Value(a) < Value(b)
    ensures LexLt(a, b)
    decreases |a|
  {
    if |a| == 0 {
      assert false;
    } else {
      var A, B := a[1..], b[1..];
      assert a == [a[0]] + A && b == [b[0]] + B;
      ValueAppend([a[0]], A);
      ValueAppend([b[0]], B);
      assert Value([a[0]]) == DigitValue(a[0]) by { assert [a[0]][..0] == []; }
      assert Value([b[0]]) == DigitValue(b[0]) by { assert [b[0]][..0] == []; }
      var P := Pow10(|A|);
      ValueBelowPow10(A);
      ValueBelowPow10(B);
      var da, db := DigitValue(a[0]), DigitValue(b[0]);
      if da == db {
        ValueOrderIsLexOrder(A, B);
      } else if da > db {
        LeadingDigitDominates(da, db, P, Value(A), Value(B));
        assert false;
      }
    }
  }

  /** Adds one to a decimal suffix, keeping its width unless every digit is
      a '9' (then the text grows by one digit, as "99" becomes "100"). */
  function IncDigits(d: string): (r: string)
    requires AllDigits(d)
    ensures AllDigits(r)
    ensures Value(r) == Value(d) + 1
    ensures !AllNines(d) ==> |r| == |d|
  {
    if d == [] then
      assert "1"[..0] == [];
      "1"
    else
      var init, last := d[..|d| - 1], d[|d| - 1];
      if last != '9' then
        var c := DigitChar(DigitValue(last) + 1);
        ValueSnoc(init, c);
        init + [c]
      else
        var up := IncDigits(init);
        ValueSnoc(up, '0');
        assert !AllNines(d) ==> !AllNines(init);
        up + ['0']
  }

  /** Appending one digit shifts the value left by one place. */
  lemma ValueSnoc(s: string, c: char)
    requires AllDigits(s) && IsDigit(c)
    ensures AllDigits(s + [c])
    ensures Value(s + [c]) == Value(s) * 10 + DigitValue(c)
  {
    assert (s + [c])[..|s|] == s;
  }

  /** Incrementing a suffix that is not all nines yields a strictly later
      name in `sorted` order. */
  lemma {:induction false} IncDigitsIsLater(d: string)
    requires AllDigits(d) && !AllNines(d)
    ensures LexLt(d, IncDigits(d))
  {
    ValueOrderIsLexOrder(d, IncDigits(d));
  }
}

=== FILE: gcp_client.dfy ===
/** `GcpStorageClient`: storage-class changes standing in for restore
    (`thaw`) and archive (`refreeze`), `head_object`'s and `copy_object`'s
    translations to and from the S3 vocabulary, and bucket creation in the
    client's default location. */
module GcpClient {
  import opened Wrappers
  import opened Strings
  import S3 = StorageClass
  import opened Batch
  import opened Buckets

  /** A blob's GCS storage class as the SDK reports it. */
  datatype GcsClass = Standard | Nearline | Coldline | Archive | OtherClass(name: string)

  function ClassName(c: GcsClass): string
  {
    match c
    case Standard => "STANDARD"
    case Nearline => "NEARLINE"
    case Coldline => "COLDLINE"
    case Archive => "ARCHIVE"
    case OtherClass(n) => n
  }

  function ParseClass(s: string): (c: GcsClass)
    ensures ClassName(c) == s
    ensures c.OtherClass? <==> s !in ["STANDARD", "NEARLINE", "COLDLINE", "ARCHIVE"]
  {
    if s == "STANDARD" then Standard
    else if s == "NEARLINE" then Nearline
    else if s == "COLDLINE" then Coldline
    else if s == "ARCHIVE" then Archive
    else OtherClass(s)
  }

  /** The location new buckets are created in: the constructor's argument
      when non-empty, else the GOOGLE_CLOUD_LOCATION variable when set (even
      to ""), else "US". */
  function DefaultLocation(location: Option<string>, env: Option<string>): (l: string)
    ensures Truthy(location) ==> l == location.value
    ensures !Truthy(location) && env.Some? ==> l == env.value
    ensures !Truthy(location) && env.None? ==> l == "US"
  {
    if Truthy(location) then location.value
    else if env.Some? then env.value
    else "US"
  }

  /** The service as these operations observe it: whether `blob.reload()`
      fails, the class it reports, whether `update_storage_class` fails. */
  datatype GcpService = GcpService(
    reloadFails: string -> bool,
    classOf: string -> GcsClass,
    updateFails: string -> bool)

  /** The SDK calls that change something. */
  datatype GcsRequest =
    | UpdateClass(bucket: string, key: string, storageClass: GcsClass)   // `blob.update_storage_class`
    | Rewrite(bucket: string, key: string, sourceBucket: string, sourceKey: string)  // `dest_blob.rewrite(source_blob)`
    | CreateBucketRequest(bucket: string, location: string)

  /** The classes `thaw` moves back to STANDARD. */
  predicate IsCold(c: GcsClass)
  {
    c == Archive || c == Coldline || c == Nearline
  }

  /** `thaw`'s test on the SDK's class string: ARCHIVE, COLDLINE and
      NEARLINE, and nothing else. */
  lemma IsColdName(s: string)
    ensures IsCold(ParseClass(s)) <==> s in ["ARCHIVE", "COLDLINE", "NEARLINE"]
  {
  }

  function ThawStep(svc: GcpService, bucket: string, basePath: string, key: string): Step<GcsRequest>
  {
    Examine(StartsWith(key, basePath),
            if svc.reloadFails(key) then None else Some(IsCold(svc.classOf(key))),
            UpdateClass(bucket, key, Standard),
            svc.updateFails(key))
  }

  /** `thaw(bucket, base_path, object_keys, restore_days, retrieval_tier)`
      over the objects' keys. GCS archive classes are readable at once, so
      the last two arguments are accepted and ignored. */
  function Thaw(svc: GcpService, bucket: string, basePath: string, keys: seq<string>, restoreDays: int, retrievalTier: string): (t: Tally<GcsRequest>)
    ensures t.done + t.skipped + t.errors == |keys|
  {
    Run(MapSeq(keys, k => ThawStep(svc, bucket, basePath, k)))
  }

  // Reference definition of what `thaw` does with each blob.

  predicate Thawable(svc: GcpService, basePath: string, key: string)
  {
    StartsWith(key, basePath) && !svc.reloadFails(key) && IsCold(svc.classOf(key))
  }

  function ThawableFn(svc: GcpService, basePath: string): string -> bool
  {
    (k: string) => Thawable(svc, basePath, k)
  }

  function ToStandardFn(bucket: string): string -> GcsRequest
  {
    (k: string) => UpdateClass(bucket, k, Standard)
  }

  function FateOf(svc: GcpService, basePath: string, key: string): Fate
  {
    if !StartsWith(key, basePath) then Skipped
    else if svc.reloadFails(key) then Failed
    else if !IsCold(svc.classOf(key)) then Skipped
    else if svc.updateFails(key) then Failed
    else Done
  }

  function HasFate(svc: GcpService, basePath: string, f: Fate): string -> bool
  {
    (k: string) => FateOf(svc, basePath, k) == f
  }

  /** Exactly the ARCHIVE, COLDLINE and NEARLINE blobs under `base_path` are
      changed, each to STANDARD, one request each, in input order. */
  lemma {:induction false} ThawRequestsExactly(svc: GcpService, bucket: string, basePath: string, keys: seq<string>, restoreDays: int, retrievalTier: string)
    ensures Thaw(svc, bucket, basePath, keys, restoreDays, retrievalTier).calls
            == MapSeq(Filter(keys, ThawableFn(svc, basePath)), ToStandardFn(bucket))
  {
    var steps := MapSeq(keys, k => ThawStep(svc, bucket, basePath, k));
    RunCallsAreRequests(keys, steps, ThawableFn(svc, basePath), ToStandardFn(bucket));
  }

  /** Each counter counts the blobs whose own fate it is; a `GoogleAPIError`
      on one blob is counted and the loop goes on. */
  lemma {:induction false} ThawCounts(svc: GcpService, bucket: string, basePath: string, keys: seq<string>, restoreDays: int, retrievalTier: string)
    ensures Thaw(svc, bucket, basePath, keys, restoreDays, retrievalTier).done == |Filter(keys, HasFate(svc, basePath, Done))|
    ensures Thaw(svc, bucket, basePath, keys, restoreDays, retrievalTier).skipped == |Filter(keys, HasFate(svc, basePath, Skipped))|
    ensures Thaw(svc, bucket, basePath, keys, restoreDays, retrievalTier).errors == |Filter(keys, HasFate(svc, basePath, Failed))|
  {
    var steps := MapSeq(keys, k => ThawStep(svc, bucket, basePath, k));
    RunCounts(steps);
    CountIsFilter(keys, steps, Done, HasFate(svc, basePath, Done));
    CountIsFilter(keys, steps, Skipped, HasFate(svc, basePath, Skipped));
    CountIsFilter(keys, steps, Failed, HasFate(svc, basePath, Failed));
  }

  /** `restore_days` and `retrieval_tier` change nothing. */
  lemma ThawIgnoresRestoreArgs(svc: GcpService, bucket: string, basePath: string, keys: seq<string>,
                               days1: int, tier1: string, days2: int, tier2: string)
    ensures Thaw(svc, bucket, basePath, keys, days1, tier1) == Thaw(svc, bucket, basePath, keys, days2, tier2)
  {
  }

  /** The class `refreeze` moves blobs to for an S3 storage class: COLDLINE
      for GLACIER_IR, ARCHIVE for GLACIER, DEEP_ARCHIVE and anything else. */
  function RefreezeClass(storageClass: S3.S3Class): (c: GcsClass)
    ensures c == Coldline <==> storageClass == S3.GlacierIR
    ensures c != Coldline ==> c == Archive
  {
    if storageClass == S3.GlacierIR then Coldline else Archive
  }

  function RefreezeStep(svc: GcpService, bucket: string, target: GcsClass, key: string): Step<GcsRequest>
  {
    Attempt(UpdateClass(bucket, key, target), svc.updateFails(key))
  }

  /** `refreeze(bucket, path, storage_class)` over the bucket's blob names;
      `list_blobs(prefix=path)` yields those under `path`. */
  function Refreeze(svc: GcpService, bucket: string, path: string, storageClass: S3.S3Class, keys: seq<string>): (t: Tally<GcsRequest>)
    ensures t.skipped == 0
    ensures t.done + t.errors == |Filter(keys, UnderPrefix(path))|
  {
    var target := RefreezeClass(storageClass);
    var steps := MapSeq(Filter(keys, UnderPrefix(path)), k => RefreezeStep(svc, bucket, target, k));
    CountZero(steps, Skipped);
    RunCounts(steps);
    Run(steps)
  }

  /** Every listed blob gets one class change to the mapped class, in
      listing order; the errors are the listed blobs whose change fails. */
  lemma {:induction false} RefreezeUpdatesEveryListed(svc: GcpService, bucket: string, path: string, storageClass: S3.S3Class, keys: seq<string>)
    ensures var listed := Filter(keys, UnderPrefix(path));
            var t := Refreeze(svc, bucket, path, storageClass, keys);
            |t.calls| == |listed|
            && (forall i :: 0 <= i < |listed| ==>
                  t.calls[i] == UpdateClass(bucket, listed[i], RefreezeClass(storageClass)))
            && t.errors == |Filter(listed, svc.updateFails)|
  {
    var listed := Filter(keys, UnderPrefix(path));
    var steps := MapSeq(listed, k => RefreezeStep(svc, bucket, RefreezeClass(storageClass), k));
    RunCallsOnePerStep(steps);
    RunCounts(steps);
    CountIsFilter(listed, steps, Failed, svc.updateFails);
  }

  /** `_map_gcs_class_to_s3`: the S3 class `head_object` reports. */
  function ClassToS3(c: GcsClass): (r: S3.S3Class)
    ensures r == S3.Glacier <==> c == Archive
    ensures r in {S3.Standard, S3.StandardIA, S3.OnezoneIA, S3.Glacier}
    ensures c.OtherClass? ==> r == S3.Standard
  {
    match c
    case Standard => S3.Standard
    case Nearline => S3.StandardIA
    case Coldline => S3.OnezoneIA
    case Archive => S3.Glacier
    case OtherClass(_) => S3.Standard
  }

  /** The class `copy_object` gives the destination blob. */
  function CopyClass(storageClass: S3.S3Class): (c: GcsClass)
    ensures c in {Standard, Nearline, Archive}
    ensures c == Standard <==> storageClass == S3.Standard
    ensures c == Nearline <==> storageClass == S3.StandardIA
  {
    match storageClass
    case Standard => Standard
    case StandardIA => Nearline
    case _ => Archive
  }

  /** Copying a blob with the class `head_object` reports keeps its class,
      except that COLDLINE (reported as ONEZONE_IA) lands in ARCHIVE. */
  lemma CopyClassAfterReport(c: GcsClass)
    requires c in {Standard, Nearline, Coldline, Archive}
    ensures CopyClass(ClassToS3(c)) == if c == Coldline then Archive else c
  {
  }

  /** The `StorageClass`, `Restore` and `GcsStorageClass` fields of
      `head_object`'s response. */
  datatype HeadReport = HeadReport(storageClass: S3.S3Class, restore: Option<string>, gcsClass: GcsClass)

  /** `head_object`: GCS has no restore step, so `Restore` is always None. */
  function HeadObject(c: GcsClass): (h: HeadReport)
    ensures h.restore == None
    ensures h.storageClass == S3.Glacier <==> c == Archive
    ensures h.storageClass == ClassToS3(c) && h.gcsClass == c
  {
    HeadReport(ClassToS3(c), None, c)
  }

  /** What `copy_object` sent, and whether it raised `ActionError`. */
  datatype CopyAttempt = CopyAttempt(calls: seq<GcsRequest>, outcome: Outcome<string>)

  /** `copy_object(Bucket, Key, CopySource, StorageClass)`: rewrite the
      source into the destination (the rewrite-token loop is one request
      here), then change the class unless the mapped class is STANDARD, which
      is treated as the default and left to the rewrite. A `GoogleAPIError` from either call
      raises `ActionError`; a failed rewrite is never followed by the class
      change. */
  function CopyObject(bucket: string, key: string, sourceBucket: string, sourceKey: string, storageClass: S3.S3Class,
                      rewriteFails: bool, updateFails: bool): (a: CopyAttempt)
    ensures |a.calls| >= 1 && a.calls[0] == Rewrite(bucket, key, sourceBucket, sourceKey)
    ensures |a.calls| == 2 <==> !rewriteFails && storageClass != S3.Standard
    ensures |a.calls| == 2 ==> a.calls[1] == UpdateClass(bucket, key, CopyClass(storageClass))
    ensures |a.calls| <= 2
    ensures a.outcome == Pass <==> !rewriteFails && (storageClass == S3.Standard || !updateFails)
  {
    var target := CopyClass(storageClass);
    if rewriteFails then CopyAttempt([Rewrite(bucket, key, sourceBucket, sourceKey)], Fail("ActionError"))
    else if target == Standard then CopyAttempt([Rewrite(bucket, key, sourceBucket, sourceKey)], Pass)
    else
      CopyAttempt([Rewrite(bucket, key, sourceBucket, sourceKey), UpdateClass(bucket, key, target)],
                  if updateFails then Fail("ActionError") else Pass)
  }

  /** An unrecognised class is copied into ARCHIVE. */
  lemma CopyObjectDefaultsToArchive(bucket: string, key: string, sourceBucket: string, sourceKey: string, name: string, updateFails: bool)
    ensures CopyObject(bucket, key, sourceBucket, sourceKey, S3.Other(name), false, updateFails).calls
            == [Rewrite(bucket, key, sourceBucket, sourceKey), UpdateClass(bucket, key, Archive)]
  {
  }

  /** `create_bucket(name)` in `default_location`: a `Conflict` from the
      create call reads as "already exists". */
  function CreateBucket(bucket: string, location: string, probe: Probe, response: CreateResponse): (a: CreateAttempt<GcsRequest>)
    ensures a.request.Some? <==> probe == NotFound
    ensures a.request.Some? ==> a.request.value == CreateBucketRequest(bucket, location)
    ensures a.outcome == Pass <==> probe == NotFound && response == Created
    ensures probe == Found || (probe == NotFound && response == Conflict) ==> a.outcome == Fail(AlreadyExists(bucket))
    ensures probe == ProbeError ==> a.outcome == Fail(ProbeFailed(bucket))
    ensures probe == NotFound && response == CreateError ==> a.outcome == Fail(CreateFailed(bucket))
  {
    Create(bucket, probe, CreateBucketRequest(bucket, location), response, true)
  }
}

=== FILE: rotation.dfy ===
/** The repository rotation of the standalone `Processor`: name the next
    repository, find the repositories that belong to this deployment,
    repoint ILM policies from the latest repository to the new one, and pick
    the oldest repositories to unmount. Elasticsearch and S3 appear only as
    the data they return (policies, repository names) and a bucket-creation
    outcome. */
module Rotation {
  import opened Wrappers
  import opened Strings
  import opened Decimal

  // ---------------------------------------------------------------------
  // ILM policies

  /** One phase of a policy: the repository of its `searchable_snapshot`
      action if it has one, and the names of its other actions. */
  datatype Phase = Phase(searchableSnapshot: Option<string>, otherActions: set<string>)

  datatype Policy = Policy(phases: map<string, Phase>)

  /** Some phase of `p` takes searchable snapshots into `repo`. */
  predicate References(p: Policy, repo: string)
  {
    exists k :: k in p.phases && p.phases[k].searchableSnapshot == Some(repo)
  }

  function RepointPhase(ph: Phase, from: string, to: string): Phase
  {
    if ph.searchableSnapshot == Some(from) then ph.(searchableSnapshot := Some(to)) else ph
  }

  /** Every phase that snapshots into `from` snapshots into `to` instead;
      nothing else in the policy changes. */
  function RepointPolicy(p: Policy, from: string, to: string): (r: Policy)
    ensures r.phases.Keys == p.phases.Keys
    ensures forall k :: k in p.phases ==> r.phases[k].otherActions == p.phases[k].otherActions
    ensures forall k :: k in p.phases && p.phases[k].searchableSnapshot != Some(from) ==> r.phases[k] == p.phases[k]
    ensures forall k :: k in p.phases && p.phases[k].searchableSnapshot == Some(from) ==> r.phases[k].searchableSnapshot == Some(to)
    ensures from != to ==> !References(r, from)
    ensures References(p, from) ==> References(r, to)
  {
    Policy(map k | k in p.phases :: RepointPhase(p.phases[k], from, to))
  }

  /** Repointing back undoes a repointing, provided no phase already used
      the new repository. */
  lemma RepointRoundTrip(p: Policy, from: string, to: string)
    requires !References(p, to)
    ensures RepointPolicy(RepointPolicy(p, from, to), to, from) == p
  {
    var q := RepointPolicy(RepointPolicy(p, from, to), to, from);
    assert q.phases.Keys == p.phases.Keys;
    forall k | k in p.phases
      ensures q.phases[k] == p.phases[k]
    {
      assert p.phases[k].searchableSnapshot != Some(to);
    }
  }

  /** What `update_ilm_policies` does: nothing when the new repository is
      already the latest, else submit the rewritten policies. */
  datatype IlmUpdate = AlreadyLatest | Submit(updated: map<string, Policy>)

  function UpdateIlmPolicies(policies: map<string, Policy>, latest: string, newRepo: string): (r: IlmUpdate)
    ensures r.AlreadyLatest? <==> latest == newRepo
    ensures r.Submit? ==> forall name :: name in r.updated <==> name in policies && References(policies[name], latest)
    ensures r.Submit? ==> forall name :: name in r.updated ==>
              r.updated[name] == RepointPolicy(policies[name], latest, newRepo)
              && !References(r.updated[name], latest) && References(r.updated[name], newRepo)
  {
    if latest == newRepo then AlreadyLatest
    else Submit(map name | name in policies && References(policies[name], latest)
                  :: RepointPolicy(policies[name], latest, newRepo))
  }

  /** After the submitted policies are stored (`put_lifecycle` replaces a
      policy by name), a second run finds nothing left to repoint. */
  lemma IlmUpdateSettles(policies: map<string, Policy>, latest: string, newRepo: string)
    requires latest != newRepo
    ensures var stored := policies + UpdateIlmPolicies(policies, latest, newRepo).updated;
            UpdateIlmPolicies(stored, latest, newRepo) == Submit(map[])
  {
    var updated := UpdateIlmPolicies(policies, latest, newRepo).updated;
    var stored := policies + updated;
    var again := UpdateIlmPolicies(stored, latest, newRepo).updated;
    forall name | name in stored
      ensures !References(stored[name], latest)
    {
      if name !in updated {
        assert !References(policies[name], latest);
      }
    }
    assert again.Keys == {};
  }

  // ---------------------------------------------------------------------
  // Repositories of this deployment

  /** `get_repos` as written: `re.search(prefix, name)` keeps every name in
      which the prefix occurs, anywhere. */
  function GetReposAsWritten(names: seq<string>, prefix: string): (r: seq<string>)
    ensures forall i :: 0 <= i < |r| ==> r[i] in names && Contains(r[i], prefix)
    ensures forall i :: 0 <= i < |names| && Contains(names[i], prefix) ==> names[i] in r
  {
    Filter(names, Mentioning(prefix))
  }

  /** `get_repos` as documented: the names that begin with the prefix. */
  function GetRepos(names: seq<string>, prefix: string): (r: seq<string>)
    ensures forall i :: 0 <= i < |r| ==> r[i] in names && StartsWith(r[i], prefix)
    ensures forall i :: 0 <= i < |names| && StartsWith(names[i], prefix) ==> names[i] in r
  {
    Filter(names, UnderPrefix(prefix))
  }

  /** What is selected as intended is also selected as written. */
  lemma GetReposWithinAsWritten(names: seq<string>, prefix: string)
    ensures forall x :: x in GetRepos(names, prefix) ==> x in GetReposAsWritten(names, prefix)
  {
    forall x | x in GetRepos(names, prefix)
      ensures x in GetReposAsWritten(names, prefix)
    {
      StartsWithIsContains(x, prefix);
    }
  }

  /** As written, a foreign repository that merely mentions the prefix is
      taken for this deployment's and, sorting after it, becomes the latest
      repository that ILM policies are moved away from. */
  lemma GetReposAsWrittenCounterexample()
    ensures GetReposAsWritten(["df-1", "x-df-2"], "df-") == ["df-1", "x-df-2"]
    ensures GetRepos(["df-1", "x-df-2"], "df-") == ["df-1"]
    ensures LatestRepo(GetReposAsWritten(["df-1", "x-df-2"], "df-")) == Some("x-df-2")
    ensures LatestRepo(GetRepos(["df-1", "x-df-2"], "df-")) == Some("df-1")
  {
    var names := ["df-1", "x-df-2"];
    MentionsWithoutStarting();
    assert StartsWith("df-1", "df-");
    StartsWithIsContains("df-1", "df-");
    assert names == ["df-1"] + ["x-df-2"];
    FilterAppend(["df-1"], ["x-df-2"], Mentioning("df-"));
    FilterAppend(["df-1"], ["x-df-2"], UnderPrefix("df-"));
    FilterSingleton("df-1", Mentioning("df-"));
    FilterSingleton("x-df-2", Mentioning("df-"));
    FilterSingleton("df-1", UnderPrefix("df-"));
    FilterSingleton("x-df-2", UnderPrefix("df-"));
    assert !LexLe("x-df-2", "df-1");
  }

  /** "x-df-2" mentions "df-" but does not begin with it. */
  lemma MentionsWithoutStarting()
    ensures Contains("x-df-2", "df-") && !StartsWith("x-df-2", "df-")
  {
    var s := "x-df-2";
    assert StartsWith(s[2..], "df-");
    assert s[1..][1..] == s[2..];
    assert Contains(s[1..], "df-");
    assert s[..3][0] == 'x';
  }

  /** `repo_list.sort(); latest_repo = repo_list[-1]`: None where indexing
      the empty list raises. */
  function LatestRepo(repos: seq<string>): (r: Option<string>)
    ensures r.None? <==> repos == []
    ensures r.Some? ==> r.value in repos && forall x :: x in repos ==> LexLe(x, r.value)
  {
    if repos == [] then None
    else
      var sorted := Sort(repos);
      assert sorted[|sorted| - 1] in multiset(repos);
      forall x | x in repos
        ensures LexLe(x, sorted[|sorted| - 1])
      {
        assert x in multiset(sorted);
        SortedLastIsMax(sorted, x);
      }
      Some(sorted[|sorted| - 1])
  }

  datatype RotationError = RepoExists(name: string)

  /** The constructor refuses a new repository name already in use. */
  function CheckNewName(newRepo: string, repos: seq<string>): (r: Outcome<RotationError>)
    ensures r.Pass? <==> newRepo !in repos
    ensures r.Fail? ==> r.error == RepoExists(newRepo)
  {
    if newRepo in repos then Fail(RepoExists(newRepo)) else Pass
  }

  // ---------------------------------------------------------------------
  // Age-off

  /** The stop index `slice(0, stop)` uses on a list of length `n`: a
      negative stop counts from the end, and the result is clamped to 0..n. */
  function PySliceStop(n: nat, stop: int): (r: nat)
    ensures r <= n
    ensures 0 <= stop <= n ==> r == stop
    ensures -(n as int) <= stop < 0 ==> r == stop + n
    ensures stop < -(n as int) ==> r == 0
    ensures stop > n ==> r == n
  {
    if stop < 0 then (if stop + n < 0 then 0 else stop + n)
    else if stop > n then n
    else stop
  }

  /** `unmount_oldest_repos` as written: `repo_list[0:len(repo_list) - keep]`. */
  function AgeOffAsWritten(repoList: seq<string>, keep: int): (r: seq<string>)
    ensures |r| <= |repoList| && r == repoList[..|r|]
    ensures keep <= 0 ==> r == repoList
    ensures 0 <= keep <= |repoList| ==> |r| == |repoList| - keep
    ensures |repoList| < keep < 2 * |repoList| ==> |r| == 2 * |repoList| - keep
    ensures keep >= 2 * |repoList| ==> r == []
  {
    repoList[..PySliceStop(|repoList|, |repoList| - keep)]
  }

  /** While `keep` does not exceed the list, the oldest `len - keep` go. */
  lemma AgeOffAsWrittenOldest(repoList: seq<string>, keep: int)
    requires 0 <= keep <= |repoList|
    ensures AgeOffAsWritten(repoList, keep) == repoList[..|repoList| - keep]
  {
  }

  /** Past the list length the stop goes negative and counts from the end:
      with `len < keep < 2 len` the first `2 len - keep` names still go. */
  lemma AgeOffAsWrittenWraps(repoList: seq<string>, keep: int)
    requires |repoList| < keep < 2 * |repoList|
    ensures AgeOffAsWritten(repoList, keep) == repoList[..2 * |repoList| - keep]
    ensures |AgeOffAsWritten(repoList, keep)| > 0
  {
  }

  /** Keeping four of three repositories still unmounts two of them. */
  lemma AgeOffAsWrittenCounterexample()
    ensures AgeOffAsWritten(["a", "b", "c"], 4) == ["a", "b"]
    ensures AgeOff(["a", "b", "c"], 4) == []
  {
    assert PySliceStop(3, -1) == 2;
  }

  /** Age-off as intended: all but the newest `keep` names of the sorted
      list, and none when there are no more than `keep`. */
  function AgeOff(repoList: seq<string>, keep: nat): (r: seq<string>)
    ensures |r| <= |repoList| && r == repoList[..|r|]
    ensures |repoList| - |r| == if keep < |repoList| then keep else |repoList|
  {
    if keep < |repoList| then repoList[..|repoList| - keep] else []
  }

  /** Both agree while `keep` does not exceed the list. */
  lemma AgeOffAgrees(repoList: seq<string>, keep: nat)
    requires keep <= |repoList|
    ensures AgeOff(repoList, keep) == AgeOffAsWritten(repoList, keep)
  {
  }

  /** On the sorted list, nothing aged off is newer than anything kept, and
      the latest repository is never aged off while `keep >= 1`. */
  lemma AgeOffOldest(repoList: seq<string>, keep: nat)
    requires Sorted(repoList)
    ensures var r := AgeOff(repoList, keep);
            forall i, j :: 0 <= i < |r| <= j < |repoList| ==> LexLe(r[i], repoList[j])
    ensures keep >= 1 ==> |AgeOff(repoList, keep)| < |repoList| || repoList == []
  {
  }

  // ---------------------------------------------------------------------
  // Suffixes

  /** `f"{year:04}.{month:02}"`. */
  function FormatMonthly(year: int, month: int): (s: string)
    ensures 0 <= year < 10000 && 0 <= month < 100 ==> |s| == 7 && s[4] == '.'
  {
    var y := FormatPadded(year, 4);
    var m := FormatPadded(month, 2);
    assert 0 <= year < 10000 && 0 <= month < 100 ==> |y| == 4 && |m| == 2 by {
      if 0 <= year < 10000 && 0 <= month < 100 {
        assert Pow10(4) == 10000 && Pow10(2) == 100;
        FormatPaddedRoundTrip(year, 4);
        FormatPaddedRoundTrip(month, 2);
      }
    }
    y + "." + m
  }

  /** The "monthly" suffix: the year and month given on the command line,
      each falling back to the current one when absent or zero. */
  function MonthlySuffix(argYear: Option<int>, argMonth: Option<int>, nowYear: int, nowMonth: int): (s: string)
    ensures argYear.Some? && argYear.value != 0 && argMonth.Some? && argMonth.value != 0 ==>
              s == FormatMonthly(argYear.value, argMonth.value)
    ensures (argYear.None? || argYear == Some(0)) && (argMonth.None? || argMonth == Some(0)) ==>
              s == FormatMonthly(nowYear, nowMonth)
    ensures argYear.Some? && argYear.value != 0 && (argMonth.None? || argMonth == Some(0)) ==>
              s == FormatMonthly(argYear.value, nowMonth)
    ensures (argYear.None? || argYear == Some(0)) && argMonth.Some? && argMonth.value != 0 ==>
              s == FormatMonthly(nowYear, argMonth.value)
  {
    var year := if argYear.Some? && argYear.value != 0 then argYear.value else nowYear;
    var month := if argMonth.Some? && argMonth.value != 0 then argMonth.value else nowMonth;
    FormatMonthly(year, month)
  }

  /** A monthly suffix reads back as its year and month: four digits, a
      dot, two digits. */
  lemma MonthlyRoundTrip(year: nat, month: nat)
    requires year < 10000 && month < 100
    ensures var s := FormatMonthly(year, month);
            |s| == 7 && s[4] == '.'
            && AllDigits(s[..4]) && Value(s[..4]) == year
            && AllDigits(s[5..]) && Value(s[5..]) == month
  {
    assert Pow10(4) == 10000 && Pow10(2) == 100;
    FormatPaddedRoundTrip(year, 4);
    FormatPaddedRoundTrip(month, 2);
    var y, m := FormatPadded(year, 4), FormatPadded(month, 2);
    assert FormatMonthly(year, month)[..4] == y;
    assert FormatMonthly(year, month)[5..] == m;
  }

  /** Later months give later suffixes in `sorted` order, so the newest
      monthly repository is the latest one. */
  lemma MonthlyOrder(y1: nat, m1: nat, y2: nat, m2: nat)
    requires y1 < 10000 && m1 < 100 && y2 < 10000 && m2 < 100
    requires y1 < y2 || (y1 == y2 && m1 < m2)
    ensures LexLt(FormatMonthly(y1, m1), FormatMonthly(y2, m2))
  {
    assert Pow10(4) == 10000 && Pow10(2) == 100;
    FormatPaddedRoundTrip(y1, 4);
    FormatPaddedRoundTrip(m1, 2);
    FormatPaddedRoundTrip(y2, 4);
    FormatPaddedRoundTrip(m2, 2);
    var Y1, M1, Y2, M2 := FormatPadded(y1, 4), FormatPadded(m1, 2), FormatPadded(y2, 4), FormatPadded(m2, 2);
    if y1 < y2 {
      ValueOrderIsLexOrder(Y1, Y2);
      LexLtExtend(Y1, Y2, "." + M1, "." + M2);
      assert FormatMonthly(y1, m1) == Y1 + ("." + M1);
      assert FormatMonthly(y2, m2) == Y2 + ("." + M2);
    } else {
      ValueOrderIsLexOrder(M1, M2);
      LexLtUnderPrefix(Y1 + ".", M1, M2);
    }
  }

  /** `f"{prefix}(.+)"` matches `s` at index `i`: the prefix occurs there
      and at least one character follows it. */
  predicate MatchAt(s: string, prefix: string, i: int)
  {
    0 <= i && i + |prefix| < |s| && s[i..i + |prefix|] == prefix
  }

  /** `re.search(f"{prefix}(.+)", s).group(1)` for a literal prefix and a
      name without line breaks: what follows the leftmost match, to the end
      of the name (`.+` is greedy); None when there is no match (the source
      then fails on `None.group`). */
  function SearchGroup(s: string, prefix: string): (r: Option<string>)
    ensures r.None? <==> forall i :: 0 <= i < |s| ==> !MatchAt(s, prefix, i)
    ensures r.Some? ==> exists i :: MatchAt(s, prefix, i) && r.value == s[i + |prefix|..]
                                   && forall j :: 0 <= j < i ==> !MatchAt(s, prefix, j)
    ensures StartsWith(s, prefix) && |prefix| < |s| ==> r == Some(s[|prefix|..])
    ensures r.Some? ==> |r.value| > 0
    decreases |s|
  {
    if StartsWith(s, prefix) && |prefix| < |s| then
      assert MatchAt(s, prefix, 0);
      Some(s[|prefix|..])
    else if |s| == 0 then None
    else
      var r := SearchGroup(s[1..], prefix);
      MatchShift(s, prefix);
      assert !MatchAt(s, prefix, 0) by { if |prefix| < |s| { assert s[0..|prefix|] == s[..|prefix|]; } }
      assert r.Some? ==> exists i :: MatchAt(s, prefix, i) && r.value == s[i + |prefix|..]
                                   && forall j :: 0 <= j < i ==> !MatchAt(s, prefix, j) by {
        if r.Some? {
          var i :| MatchAt(s[1..], prefix, i) && r.value == s[1..][i + |prefix|..]
                   && forall j :: 0 <= j < i ==> !MatchAt(s[1..], prefix, j);
          assert s[1..][i + |prefix|..] == s[i + 1 + |prefix|..];
          assert MatchAt(s, prefix, i + 1);
        }
      }
      r
  }

  /** Dropping the first character of `s` shifts every match one place left. */
  lemma MatchShift(s: string, prefix: string)
    requires |s| > 0
    ensures forall i {:trigger MatchAt(s[1..], prefix, i)} :: 0 <= i ==> (MatchAt(s[1..], prefix, i) <==> MatchAt(s, prefix, i + 1))
    ensures forall i {:trigger MatchAt(s, prefix, i)} :: 1 <= i ==> (MatchAt(s, prefix, i) <==> MatchAt(s[1..], prefix, i - 1))
  {
    forall i | 0 <= i < |s| - 1 - |prefix|
      ensures MatchAt(s[1..], prefix, i) <==> MatchAt(s, prefix, i + 1)
    {
      assert s[1..][i..i + |prefix|] == s[i + 1..i + 1 + |prefix|];
    }
  }

  /** The "oneup" suffix as written: the latest repository's own suffix. */
  function OneupSuffixAsWritten(prefix: string, latest: string): (r: Option<string>)
    ensures r.None? <==> forall i :: 0 <= i < |latest| ==> !MatchAt(latest, prefix, i)
    ensures StartsWith(latest, prefix) && |prefix| < |latest| ==> r.Some? && prefix + r.value == latest
  {
    assert |prefix| <= |latest| ==> latest == latest[..|prefix|] + latest[|prefix|..];
    SearchGroup(latest, prefix)
  }

  /** As written, "oneup" reproduces the latest repository's name, so the
      collision check rejects every rotation. */
  lemma OneupAsWrittenCollides(prefix: string, repos: seq<string>)
    requires LatestRepo(repos).Some?
    requires StartsWith(LatestRepo(repos).value, prefix) && |prefix| < |LatestRepo(repos).value|
    ensures OneupSuffixAsWritten(prefix, LatestRepo(repos).value).Some?
    ensures prefix + OneupSuffixAsWritten(prefix, LatestRepo(repos).value).value == LatestRepo(repos).value
    ensures CheckNewName(prefix + OneupSuffixAsWritten(prefix, LatestRepo(repos).value).value, repos).Fail?
  {
    var latest := LatestRepo(repos).value;
    assert latest == latest[..|prefix|] + latest[|prefix|..];
  }

  /** The "oneup" suffix as intended: the latest repository's numeric
      suffix plus one, at the same width ("000041" gives "000042"). */
  function NextOneupSuffix(prefix: string, latest: string): (r: Option<string>)
    ensures r.Some? <==> StartsWith(latest, prefix) && |prefix| < |latest| && AllDigits(latest[|prefix|..])
    ensures r.Some? ==> AllDigits(r.value) && Value(r.value) == Value(latest[|prefix|..]) + 1
    ensures r.Some? && !AllNines(latest[|prefix|..]) ==> |r.value| == |latest| - |prefix|
  {
    if StartsWith(latest, prefix) && |prefix| < |latest| && AllDigits(latest[|prefix|..]) then Some(IncDigits(latest[|prefix|..]))
    else None
  }

  /** The intended "oneup" name sorts after every existing repository, so it
      passes the collision check and becomes the latest; this needs the
      suffix not to be all nines, where the number gains a digit. */
  lemma NextOneupFresh(prefix: string, repos: seq<string>)
    requires LatestRepo(repos).Some?
    requires StartsWith(LatestRepo(repos).value, prefix)
    requires AllDigits(LatestRepo(repos).value[|prefix|..]) && !AllNines(LatestRepo(repos).value[|prefix|..])
    ensures NextOneupSuffix(prefix, LatestRepo(repos).value).Some?
    ensures var n := prefix + NextOneupSuffix(prefix, LatestRepo(repos).value).value;
            (forall x :: x in repos ==> LexLt(x, n)) && CheckNewName(n, repos).Pass?
  {
    var latest := LatestRepo(repos).value;
    var suffix := latest[|prefix|..];
    var n := prefix + IncDigits(suffix);
    assert latest == prefix + suffix;
    IncDigitsIsLater(suffix);
    LexLtUnderPrefix(prefix, suffix, IncDigits(suffix));
    forall x | x in repos
      ensures LexLt(x, n)
    {
      LexLeTransitive(x, latest, n);
      if x == n {
        LexLeAntisymmetric(latest, n);
      }
    }
    assert !LexLt(n, n);
  }

  // ---------------------------------------------------------------------
  // The rotation as a whole

  /** The settings of the new snapshot repository. */
  datatype RepoSettings = RepoSettings(bucket: string, basePath: string, cannedAcl: string, storageClass: string)

  datatype Effect =
    | CreateRepository(name: string, settings: RepoSettings)   // snapshot.create_repository
    | PutLifecycle(policies: map<string, Policy>)              // ilm.put_lifecycle, once per policy
    | UnmountNotice(repos: seq<string>)                        // the names unmount_oldest_repos announces
    | BucketFailed(bucket: string)                             // "Could not create bucket", exit 1

  /** `process` for a cluster whose snapshot repositories are `names`:
      this deployment's repositories are those under `prefix` (the
      constructor has already failed when there are none). With the bucket
      created, create the repository, repoint the policies from the latest
      repository, announce the age-off of the sorted list; otherwise stop.
      Uses the intended repository selection and age-off. */
  function Process(bucketCreated: bool, newRepo: string, settings: RepoSettings,
                   policies: map<string, Policy>, names: seq<string>, prefix: string, keep: nat): (r: seq<Effect>)
    requires GetRepos(names, prefix) != []
    ensures !bucketCreated <==> r == [BucketFailed(settings.bucket)]
    ensures bucketCreated ==> |r| >= 2 && r[0] == CreateRepository(newRepo, settings)
                              && r[|r| - 1] == UnmountNotice(AgeOff(Sort(GetRepos(names, prefix)), keep))
    ensures bucketCreated ==>
              var u := UpdateIlmPolicies(policies, LatestRepo(GetRepos(names, prefix)).value, newRepo);
              (|r| == 3 <==> u.Submit? && |u.updated| > 0)
              && (|r| == 3 ==> r[1] == PutLifecycle(u.updated))
              && |r| <= 3
    ensures forall i :: 0 <= i < |r| && r[i].PutLifecycle? ==>
              var latest := LatestRepo(GetRepos(names, prefix)).value;
              i == 1 && bucketCreated && latest != newRepo && StartsWith(latest, prefix) && |r[i].policies| > 0
              && forall name :: name in r[i].policies ==> !References(r[i].policies[name], latest)
  {
    if !bucketCreated then [BucketFailed(settings.bucket)]
    else
      var repos := GetRepos(names, prefix);
      var latest := LatestRepo(repos).value;
      var puts := match UpdateIlmPolicies(policies, latest, newRepo)
        case AlreadyLatest => []
        case Submit(updated) => if |updated| > 0 then [PutLifecycle(updated)] else [];
      [CreateRepository(newRepo, settings)] + puts + [UnmountNotice(AgeOff(Sort(repos), keep))]
  }

  /** With the bucket created, a policy that snapshots into the latest
      repository is always submitted, repointed to the new one; and nothing
      is submitted exactly when the new repository already is the latest or
      no policy references the latest. */
  lemma ProcessSubmitsReferencing(newRepo: string, settings: RepoSettings, policies: map<string, Policy>,
                                  names: seq<string>, prefix: string, keep: nat)
    requires GetRepos(names, prefix) != []
    ensures var latest := LatestRepo(GetRepos(names, prefix)).value;
            var r := Process(true, newRepo, settings, policies, names, prefix, keep);
            (|r| == 2 <==> latest == newRepo || forall name :: name in policies ==> !References(policies[name], latest))
            && forall name :: name in policies && latest != newRepo && References(policies[name], latest) ==>
                 |r| == 3 && r[1].PutLifecycle? && name in r[1].policies
                 && r[1].policies[name] == RepointPolicy(policies[name], latest, newRepo)
  {
    var latest := LatestRepo(GetRepos(names, prefix)).value;
    var u := UpdateIlmPolicies(policies, latest, newRepo);
    if u.Submit? {
      forall name | name in policies && References(policies[name], latest)
        ensures |u.updated| > 0
      {
        assert name in u.updated;
      }
    }
  }
}

=== FILE: s3client.dfy ===
/** The provider-neutral `S3Client` interface: its default arguments, the
    factory that picks an implementation, and how the three providers'
    storage-class rules line up with each other. */
module S3Client {
  import opened Wrappers
  import S3 = StorageClass
  import AwsClient
  import AzureClient
  import GcpClient

  /** `thaw`'s `restore_days` default. */
  const DefaultRestoreDays: int := 7
  /** `thaw`'s `retrieval_tier` default. */
  const DefaultRetrievalTier: string := "Standard"
  /** `refreeze`'s `storage_class` default, "GLACIER". */
  const DefaultRefreezeClass: S3.S3Class := S3.Glacier

  /** The implementations the factory can hand out. */
  datatype Provider = Aws | Azure

  datatype FactoryError =
    | NotImplemented(provider: string)  // NotImplementedError
    | Unsupported(provider: string)     // ValueError("Unsupported provider: ...")

  /** `s3_client_factory(provider)`. GCP has a client class, but the
      factory still refuses it. */
  function ClientFactory(provider: string): (r: Result<Provider, FactoryError>)
    ensures r == Success(Aws) <==> provider == "aws"
    ensures r == Success(Azure) <==> provider == "azure"
    ensures r == Failure(NotImplemented(provider)) <==> provider == "gcp"
    ensures r == Failure(Unsupported(provider)) <==> provider !in ["aws", "azure", "gcp"]
  {
    if provider == "aws" then Success(Aws)
    else if provider == "azure" then Success(Azure)
    else if provider == "gcp" then Failure(NotImplemented(provider))
    else Failure(Unsupported(provider))
  }

  /** Each client the factory builds answers to exactly one provider name. */
  lemma FactoryInjective(p: string, q: string)
    requires ClientFactory(p).Success? && ClientFactory(p) == ClientFactory(q)
    ensures p == q
  {
  }

  /** With the defaults, every provider refreezes into a cold class that a
      later `thaw` restores: S3 GLACIER, Azure Archive, GCS ARCHIVE; and
      the default retrieval tier rehydrates at Azure's standard priority. */
  lemma DefaultsAreCold()
    ensures AwsClient.IsCold(DefaultRefreezeClass)
    ensures AzureClient.RefreezeTier(DefaultRefreezeClass) == AzureClient.Archive
    ensures GcpClient.RefreezeClass(DefaultRefreezeClass) == GcpClient.Archive
    ensures AzureClient.PriorityFor(DefaultRetrievalTier) == AzureClient.StandardPriority
    ensures GcpClient.IsCold(GcpClient.RefreezeClass(DefaultRefreezeClass))
  {
  }

  /** A `thaw` called with the interface defaults asks S3 to keep every
      restored object for 7 days at the Standard retrieval tier. */
  lemma DefaultThawRequests(svc: AwsClient.S3Service, bucket: string, basePath: string, objects: seq<AwsClient.S3Object>)
    ensures forall r :: r in AwsClient.Thaw(svc, bucket, basePath, objects, DefaultRestoreDays, DefaultRetrievalTier).calls ==>
              r.days == 7 && r.tier == "Standard" && r.bucket == bucket
  {
    AwsClient.ThawRequestsInScope(svc, bucket, basePath, objects, DefaultRestoreDays, DefaultRetrievalTier);
  }

  /** Whether a later `thaw` on the same provider picks up an object that
      `refreeze` moved with class `c`: always on GCP, on AWS for the three
      Glacier classes, but on Azure not for GLACIER_IR, which lands in Cool. */
  lemma RefreezeThenThaw(c: S3.S3Class)
    ensures GcpClient.IsCold(GcpClient.RefreezeClass(c))
    ensures (AzureClient.RefreezeTier(c) == AzureClient.Archive) <==> c != S3.GlacierIR
    ensures AwsClient.IsCold(c) <==> c in {S3.Glacier, S3.DeepArchive, S3.GlacierIR}
  {
  }

  /** Azure thaws exactly the blobs its `head_object` reports as GLACIER;
      GCP also thaws blobs reported as STANDARD_IA and ONEZONE_IA, classes
      the AWS rule leaves alone. */
  lemma ColdSetsAgainstReportedClass(t: AzureClient.AzureTier, g: GcpClient.GcsClass)
    ensures t == AzureClient.Archive <==> AzureClient.TierToS3(t) == S3.Glacier
    ensures GcpClient.IsCold(g) <==> GcpClient.ClassToS3(g) in {S3.Glacier, S3.OnezoneIA, S3.StandardIA}
    ensures GcpClient.IsCold(g) && !AwsClient.IsCold(GcpClient.ClassToS3(g)) <==> g in {GcpClient.Nearline, GcpClient.Coldline}
  {
  }
}

=== FILE: storage_class.dfy ===
/** The S3 storage-class vocabulary every provider reports in, whatever its
    native tiers are. SDK values are strings; `Parse` and `Name` translate
    between the strings and this datatype without loss. */
module StorageClass {

  datatype S3Class =
    | Standard      // "STANDARD"
    | StandardIA    // "STANDARD_IA"
    | OnezoneIA     // "ONEZONE_IA"
    | Glacier       // "GLACIER"
    | DeepArchive   // "DEEP_ARCHIVE"
    | GlacierIR     // "GLACIER_IR"
    | Other(name: string)  // any other string, "" and "INTELLIGENT_TIERING" included

  function Name(c: S3Class): string
  {
    match c
    case Standard => "STANDARD"
    case StandardIA => "STANDARD_IA"
    case OnezoneIA => "ONEZONE_IA"
    case Glacier => "GLACIER"
    case DeepArchive => "DEEP_ARCHIVE"
    case GlacierIR => "GLACIER_IR"
    case Other(n) => n
  }

  /** The strings that have a constructor of their own. */
  predicate Named(s: string)
  {
    s == "STANDARD" || s == "STANDARD_IA" || s == "ONEZONE_IA"
    || s == "GLACIER" || s == "DEEP_ARCHIVE" || s == "GLACIER_IR"
  }

  /** A value as `Parse` produces it: `Other` never hides a named class. */
  predicate Canonical(c: S3Class)
  {
    c.Other? ==> !Named(c.name)
  }

  function Parse(s: string): (c: S3Class)
    ensures Name(c) == s
    ensures Canonical(c)
  {
    if s == "STANDARD" then Standard
    else if s == "STANDARD_IA" then StandardIA
    else if s == "ONEZONE_IA" then OnezoneIA
    else if s == "GLACIER" then Glacier
    else if s == "DEEP_ARCHIVE" then DeepArchive
    else if s == "GLACIER_IR" then GlacierIR
    else Other(s)
  }

  /** `Name` is a left inverse of `Parse`: no canonical class is lost. */
  lemma ParseName(c: S3Class)
    requires Canonical(c)
    ensures Parse(Name(c)) == c
  {
  }
}

=== FILE: strings.dfy ===
/** String and sequence helpers with the semantics of the Python built-ins
    the source relies on: `str.startswith`, a regular-expression search for
    a literal pattern, list comprehensions with a filter, `str.replace` of
    one character, and the code-point ordering `sorted` uses on strings. */
module Strings {

  /** `s.startswith(p)`. */
  predicate StartsWith(s: string, p: string)
  {
    |p| <= |s| && s[..|p|] == p
  }

  /** `re.search(p, s)` succeeds, for a pattern `p` holding no
      regular-expression metacharacters: `p` occurs somewhere in `s`. */
  predicate Contains(s: string, p: string)
    decreases |s|
  {
    StartsWith(s, p) || (|s| > 0 && Contains(s[1..], p))
  }

  /** Text that starts with a pattern contains it. */
  lemma StartsWithIsContains(s: string, p: string)
    requires StartsWith(s, p)
    ensures Contains(s, p)
  {
  }

  /** `[x for x in s if keep(x)]`: the elements of `s` that pass, in order. */
  function Filter<T>(s: seq<T>, keep: T -> bool): (r: seq<T>)
    ensures |r| <= |s|
    ensures forall i :: 0 <= i < |r| ==> r[i] in s && keep(r[i])
    ensures forall i :: 0 <= i < |s| && keep(s[i]) ==> s[i] in r
  {
    if s == [] then []
    else (if keep(s[0]) then [s[0]] else []) + Filter(s[1..], keep)
  }

  /** Filtering distributes over concatenation, so it keeps relative order. */
  lemma {:induction false} FilterAppend<T>(a: seq<T>, b: seq<T>, keep: T -> bool)
    ensures Filter(a + b, keep) == Filter(a, keep) + Filter(b, keep)
  {
    if a == [] {
      assert a + b == b;
    } else {
      assert (a + b)[0] == a[0];
      assert (a + b)[1..] == a[1..] + b;
      FilterAppend(a[1..], b, keep);
    }
  }

  /** A filter that every element passes changes nothing. */
  lemma {:induction false} FilterKeepsAll<T>(s: seq<T>, keep: T -> bool)
    requires forall i :: 0 <= i < |s| ==> keep(s[i])
    ensures Filter(s, keep) == s
  {
    if s != [] {
      FilterKeepsAll(s[1..], keep);
    }
  }

  /** Two tests that agree on every element select the same elements. */
  lemma {:induction false} FilterCongruent<T>(s: seq<T>, p: T -> bool, q: T -> bool)
    requires forall i :: 0 <= i < |s| ==> p(s[i]) == q(s[i])
    ensures Filter(s, p) == Filter(s, q)
  {
    if s != [] {
      FilterCongruent(s[1..], p, q);
    }
  }

  /** Filtering one element keeps it exactly when it passes. */
  lemma FilterSingleton<T>(x: T, keep: T -> bool)
    ensures Filter([x], keep) == if keep(x) then [x] else []
  {
    assert [x][1..] == [];
  }

  /** `[f(x) for x in s]`. */
  function MapSeq<T, U>(s: seq<T>, f: T -> U): (r: seq<U>)
    ensures |r| == |s|
    ensures forall i :: 0 <= i < |s| ==> r[i] == f(s[i])
  {
    seq(|s|, i requires 0 <= i < |s| => f(s[i]))
  }

  /** The test `key.startswith(prefix)` as a value, so that every use of
      "the keys under `prefix`" denotes the same filter. */
  function UnderPrefix(prefix: string): string -> bool
  {
    key => StartsWith(key, prefix)
  }

  /** The test `re.search(pattern, s)` for a literal pattern, as a value. */
  function Mentioning(pattern: string): string -> bool
  {
    s => Contains(s, pattern)
  }

  /** `s.replace(a, b)` for single characters `a` and `b`. */
  function ReplaceChar(s: string, a: char, b: char): (r: string)
    ensures |r| == |s|
    ensures forall i :: 0 <= i < |s| ==> r[i] == (if s[i] == a then b else s[i])
  {
    seq(|s|, i requires 0 <= i < |s| => if s[i] == a then b else s[i])
  }

  /** Python's `a <= b` on `str`: code-point lexicographic order. */
  predicate LexLe(a: string, b: string)
    decreases |a|
  {
    |a| == 0 || (|b| > 0 && (a[0] < b[0] || (a[0] == b[0] && LexLe(a[1..], b[1..]))))
  }

  /** Python's `a < b` on `str`. */
  predicate LexLt(a: string, b: string)
  {
    LexLe(a, b) && a != b
  }

  lemma {:induction false} LexLeReflexive(a: string)
    ensures LexLe(a, a)
  {
    if |a| > 0 {
      LexLeReflexive(a[1..]);
    }
  }

  lemma {:induction false} LexLeTotal(a: string, b: string)
    ensures LexLe(a, b) || LexLe(b, a)
    decreases |a|
  {
    if |a| > 0 && |b| > 0 && a[0] == b[0] {
      LexLeTotal(a[1..], b[1..]);
    }
  }

  lemma {:induction false} LexLeAntisymmetric(a: string, b: string)
    requires LexLe(a, b) && LexLe(b, a)
    ensures a == b
    decreases |a|
  {
    if |a| > 0 {
      LexLeAntisymmetric(a[1..], b[1..]);
      assert a == [a[0]] + a[1..];
      assert b == [b[0]] + b[1..];
    }
  }

  lemma {:induction false} LexLeTransitive(a: string, b: string, c: string)
    requires LexLe(a, b) && LexLe(b, c)
    ensures LexLe(a, c)
    decreases |a|
  {
    if |a| > 0 && a[0] == b[0] && b[0] == c[0] {
      LexLeTransitive(a[1..], b[1..], c[1..]);
    }
  }

  /** A common prefix does not change the order of two strings. */
  lemma {:induction false} LexLtUnderPrefix(p: string, a: string, b: string)
    requires LexLt(a, b)
    ensures LexLt(p + a, p + b)
    decreases |p|
  {
    assert (p + a)[|p|..] == a && (p + b)[|p|..] == b;
    if |p| == 0 {
      assert p + a == a && p + b == b;
    } else {
      assert (p + a)[1..] == p[1..] + a;
      assert (p + b)[1..] == p[1..] + b;
      LexLtUnderPrefix(p[1..], a, b);
    }
  }

  /** Two strings of equal length keep their order whatever follows them. */
  lemma {:induction false} LexLtExtend(a: string, b: string, x: string, y: string)
    requires |a| == |b| && LexLt(a, b)
    ensures LexLt(a + x, b + y)
    decreases |a|
  {
    assert (a + x)[0] == a[0] && (b + y)[0] == b[0];
    if a[0] == b[0] {
      assert a[1..] != b[1..] by {
        assert a == [a[0]] + a[1..];
        assert b == [b[0]] + b[1..];
      }
      assert (a + x)[1..] == a[1..] + x;
      assert (b + y)[1..] == b[1..] + y;
      LexLtExtend(a[1..], b[1..], x, y);
    }
  }

  /** Ascending in `sorted`'s order. */
  predicate Sorted(s: seq<string>)
  {
    forall i, j :: 0 <= i < j < |s| ==> LexLe(s[i], s[j])
  }

  /** Insertion into a sorted list, after every element that precedes `x`. */
  function Insert(x: string, s: seq<string>): (r: seq<string>)
    requires Sorted(s)
    ensures Sorted(r)
    ensures multiset(r) == multiset(s) + multiset{x}
  {
    if s == [] then [x]
    else if LexLe(x, s[0]) then
      InsertFront(x, s);
      [x] + s
    else
      LexLeTotal(x, s[0]);
      var t := Insert(x, s[1..]);
      assert s == [s[0]] + s[1..];
      InsertBehind(s[0], x, s[1..], t);
      [s[0]] + t
  }

  lemma InsertFront(x: string, s: seq<string>)
    requires Sorted(s) && |s| > 0 && LexLe(x, s[0])
    ensures Sorted([x] + s)
  {
    var r := [x] + s;
    forall i, j | 0 <= i < j < |r|
      ensures LexLe(r[i], r[j])
    {
      if i == 0 {
        if j > 1 {
          assert LexLe(s[0], s[j - 1]);
          LexLeTransitive(x, s[0], s[j - 1]);
        }
      } else {
        assert r[i] == s[i - 1] && r[j] == s[j - 1];
      }
    }
  }

  lemma InsertBehind(y: string, x: string, s: seq<string>, t: seq<string>)
    requires Sorted([y] + s) && Sorted(t) && LexLe(y, x)
    requires multiset(t) == multiset(s) + multiset{x}
    ensures Sorted([y] + t)
  {
    var ys := [y] + s;
    var r := [y] + t;
    forall i, j | 0 <= i < j < |r|
      ensures LexLe(r[i], r[j])
    {
      if i == 0 {
        var e := t[j - 1];
        assert e in multiset(t);
        if e != x {
          assert e in multiset(s);
          var k :| 0 <= k < |s| && s[k] == e;
          assert ys[0] == y && ys[k + 1] == e;
        }
      } else {
        assert r[i] == t[i - 1] && r[j] == t[j - 1];
      }
    }
  }

  /** `sorted(s)`: the same names, in ascending order. */
  function Sort(s: seq<string>): (r: seq<string>)
    ensures Sorted(r)
    ensures multiset(r) == multiset(s)
  {
    if s == [] then []
    else
      assert s == s[..|s| - 1] + [s[|s| - 1]];
      Insert(s[|s| - 1], Sort(s[..|s| - 1]))
  }

  /** The last element of a sorted list is the greatest. */
  lemma SortedLastIsMax(s: seq<string>, x: string)
    requires Sorted(s) && x in s
    ensures LexLe(x, s[|s| - 1])
  {
    var i :| 0 <= i < |s| && s[i] == x;
    if i < |s| - 1 {
    } else {
      LexLeReflexive(x);
    }
  }
}

=== FILE: wrappers.dfy ===
/** Failure-carrying values used throughout the model in place of the
    source's exceptions and `None` returns. */
module Wrappers {

  /** A value that may be absent (Python's `None`). */
  datatype Option<+T> = None | Some(value: T)

  /** A value or the error that was raised instead of producing it. */
  datatype Result<+T, +E> = Success(value: T) | Failure(error: E)

  /** Completion of an operation that returns nothing (`-> None`) or raises. */
  datatype Outcome<+E> = Pass | Fail(error: E)

  /** Python truthiness of an optional string: present and not empty. */
  predicate Truthy(s: Option<string>)
  {
    s.Some? && s.value != ""
  }
}
